=== FILE: README.md ===
# webpack-aem-pages-plugin, modelled in Dafny

This project models the core of the webpack plugin that renders AEM-style
pages from a folder of JSON content files and HTL component templates. It
covers four parts.

- **Content reader** (`content_reader.dfy`). Every content file is parsed and
  "exploded" into one flat map. The map goes from absolute path to content
  node, and every object-typed field gets its own entry at
  `<path>/<field>`, recursively. The map is a JavaScript object, so it also
  has an enumeration order; `Contents` keeps both.
- **Resource resolver and `Resource`** (`resolver.dfy`, `resource_view.dfy`).
  These are read-only queries over the map: exact lookup, child, children,
  parent, value map and search by resource type. The resource type is
  derived from `sling:resourceType`, else `jcr:primaryType` with ':' turned
  into '/', else `nt/unstructured`. Where JavaScript throws a `TypeError`,
  the model returns a `Fault`.
- **Bindings provider** (`bindings.dfy`). This gives the binding names, and
  the per-resource record of the `model` binding plus the configured custom
  bindings.
- **Render steps of the HTL renderer** (`resource_names.dfy`,
  `htl_render.dfy`, `render_properties.dfy`). These cover:
  - how a `data-sly-resource` name splits into resource name and selectors;
  - how the resource to render is found, or synthesised;
  - which template file renders it, and with which globals;
  - the script resolver, the module import generator and the include
    handler;
  - the globals of top-level component and page renders.

Shared parts:
- `results.dfy`: `Option`, `Result` and the faults.
- `json.dfy`: parsed JSON values, JavaScript truthiness, `typeof ==
  'object'`, and the keys `for ... in` visits.
- `paths.dfy`: Node's POSIX `dirname` and `basename`, character by
  character, plus the part of `path.resolve` the plugin relies on.

Collaborators the plugin only calls are parameters:
- the template engine: rendering is the value `RenderCall(file, globals)`;
- the file system: the predicate `isFile` and the list of content files;
- model scripts: `loadModel(file, globals)`;
- binding functions: a function of the globals.

Three behaviours of the code are worth naming:
- A configured binding named `model` replaces the model script's value
  (`Bindings.CustomModelOverrides`); nothing rejects it.
- A missing model script leaves the `model` key out of the bindings.
- A relative name whose child is absent throws, even with a type override
  (Finding 1).

## Model

| member | source | states |
|---|---|---|
| ContentReader.Put | libs/RepositoryContentReader.js:46 | assigning a key sets its value and only appends to the enumeration order, so no key is ever removed or moved |
| ContentReader.Explode | libs/RepositoryContentReader.js:45-52 | exploding `v` at `p` adds exactly the paths of `v` (its own path and, recursively, `p/f` for every object-typed field `f`); it stores `v` itself at `p`, removes nothing and leaves every other key's value alone |
| ContentReader.ExplodeFields | libs/RepositoryContentReader.js:47-51 | the loop over the fields adds exactly the paths of the fields still to visit, and leaves other keys alone |
| ContentReader.ExplodeAliasing | libs/RepositoryContentReader.js:46-50 | when field names are distinct and slash-free at every depth, the entry at `p/f` is the very value of field `f` of the node at `p`, for every object-typed field |
| ContentReader.ScalarFieldNoEntry | libs/RepositoryContentReader.js:48 | a field whose value is a string, number or boolean gets no entry of its own |
| ContentReader.PathsCount | libs/RepositoryContentReader.js:45-52 | with such names, an explode reaches one path plus one per object-typed descendant |
| ContentReader.ExplodeCount | libs/RepositoryContentReader.js:45-52 | exploding into keys that do not clash adds exactly `1 + ObjectCount(v)` entries |
| ContentReader.ContentPath | libs/RepositoryContentReader.js:35-40 | a file's root path always starts with '/'; for `index` it is the directory's path; for any other name it is the directory's path, `/` and the name (just `/name` for the top directory), so `dirname` and `basename` of it give back the directory's path and the file name |
| ContentReader.ReadInto | libs/RepositoryContentReader.js:12-26 | reading files one after another adds exactly the paths the files reach and keeps the earlier order; a key no file reaches keeps its value; a file's root path that no later file reaches holds that file's content, so the last file read wins at its own path |
| ContentReader.ReadIntoStep | libs/RepositoryContentReader.js:14-19 | reading the first file and then the rest adds the paths of all files and leaves every key none of them reaches alone |
| ContentReader.ReadIntoRoots | libs/RepositoryContentReader.js:14-19 | a root path that no later file reaches keeps the content its file stored |
| ContentReader.ReadIntoLast | libs/RepositoryContentReader.js:14-19 | the last file's root path holds that file's content |
| ContentReader.ReadContents | libs/RepositoryContentReader.js:12-26 | the contents hold exactly the paths reached by the content files, and every file's root path that no later file reaches holds that file's parsed content |
| JsonValues.ArrayEntryNamesDistinct | libs/RepositoryContentReader.js:47 | the index names `for ... in` gives an array's elements are pairwise distinct |
| JsonValues.Entries | libs/RepositoryContentReader.js:47 | every value `for ... in` visits is a strict part of the value being walked, so the explode recursion ends |
| JsonValues.IsObjectTyped | libs/RepositoryContentReader.js:48 | `typeof v == 'object'` holds exactly for values that are not booleans, numbers or strings |
| JsonValues.FalsyValues | libs/resources/ResourceResolver.js:93-95 | a value is truthy exactly when it is defined and is not `null`, `false`, `0` or `""` (the tests at lines 93 and 95 and at libs/HTLRender.js:216) |
| JsonValues.Prop | libs/resources/ResourceResolver.js:92-94 | reading a named property gives a value exactly when the value is an object with a field of that name, and the value is that field's |
| JsonValues.Lookup | libs/resources/ResourceResolver.js:92 | a property read finds a value exactly when some field has that name, and the value is that field's |
| PathOps.DirnameOfChild | libs/resources/ResourceResolver.js:53 | `dirname(p + '/' + n)` is `p` for a path `p` not ending in '/' and a segment `n` |
| PathOps.Dirname | libs/resources/ResourceResolver.js:40 | `dirname` of an absolute path is absolute, and is `.`, `/`, `//` or a proper prefix of the path followed there by '/' |
| PathOps.Basename | libs/Resource.js:15 | `basename` never contains a '/' |
| PathOps.BasenameIsLastSegment | libs/Resource.js:15 | for a path not ending in '/', `basename` is a non-empty suffix of the path that starts it or follows a '/' |
| PathOps.Resolve | libs/HTLRender.js:83 | `path.resolve(base, rel)` is `rel` when it is absolute, `base` when it is empty, and `base/rel` otherwise |
| PathOps.BasenameOfChild | libs/Resource.js:15 | `basename(p + '/' + n)` is `n` for any segment `n` |
| PathOps.BasenameUnder | libs/HTLRender.js:83-84 | resolving a relative named path below a directory keeps its last segment |
| PathOps.ResolveKeepsName | libs/HTLRender.js:83-84 | resolving a named path against the source directory gives a named path with the same last segment |
| PathOps.ChildPath | libs/HTLRender.js:210-211 | `p + '/' + n` has `basename` `n` for a segment `n`, and `dirname` `p` when `p` is named |
| PathOps.UnderDistinctSiblings | libs/RepositoryContentReader.js:49 | paths at or below two differently named children of one node never coincide |
| Resolver.ReplaceColons | libs/resources/ResourceResolver.js:95 | every ':' becomes '/', and every other character and the length are kept |
| Resolver.ResourceTypeOf | libs/resources/ResourceResolver.js:91-99 | the type of `undefined` or `null` content throws; a derived type is never empty; a type other than `nt/unstructured` comes from a truthy `sling:resourceType` or `jcr:primaryType` |
| Resolver.ResourceTypeFails | libs/resources/ResourceResolver.js:92-95 | for defined non-null content, the type derivation fails exactly when the deciding field (a truthy `sling:resourceType`, else a truthy `jcr:primaryType`) is not a string |
| Resolver.PrimaryTypeNotString | libs/resources/ResourceResolver.js:95 | a truthy non-string `jcr:primaryType` that decides the type makes `.replace` throw |
| Resolver.SlingTypeWins | libs/resources/ResourceResolver.js:92-93 | a truthy string `sling:resourceType` is the type, whatever `jcr:primaryType` holds |
| Resolver.PrimaryTypeNamespace | libs/resources/ResourceResolver.js:94-95 | without a truthy `sling:resourceType`, a `jcr:primaryType` of `ns:name` gives the type `ns/name` |
| Resolver.PrimaryTypeDecides | libs/resources/ResourceResolver.js:94-95 | without a truthy `sling:resourceType`, any non-empty string `jcr:primaryType` decides the type, with every ':' turned into '/' |
| Resolver.PageTypeExample | libs/resources/ResourceResolver.js:95 | `jcr:primaryType` `cq:Page` gives the type `cq/Page`, which the page search of the plugin looks for |
| Resolver.DefaultTypeWhenUnmarked | libs/resources/ResourceResolver.js:96 | a node with neither field set is `nt/unstructured` |
| Resolver.MakeResource | libs/resources/ResourceResolver.js:83-85 | a resource is made exactly when the content has a type; it then has the given path and that type, and otherwise it carries the type derivation's fault |
| Resolver.ScanFor | libs/resources/ResourceResolver.js:14-19 | the scan returns the resource made at `q` when `q` is among the keys, and nothing otherwise |
| Resolver.GetResource | libs/resources/ResourceResolver.js:13-20 | the result is nothing exactly when `q` is not a key; a found resource has path `q` and the node's derived type; the call throws exactly when the node at `q` has no type |
| Resolver.GetChild | libs/resources/ResourceResolver.js:27-30 | the child is the stored resource at `path + '/' + name`, with the type derived from that node; it is made exactly when that key exists with a typed node, so an absent key throws |
| Resolver.GetParent | libs/resources/ResourceResolver.js:51-55 | the parent is the stored resource at `dirname(path)`, with the type derived from that node; it is made exactly when that key exists with a typed node, so an absent key throws |
| Resolver.GetValueMap | libs/resources/ResourceResolver.js:61-63 | the value map is the stored node at the resource's path, unchanged, or `undefined` when there is none |
| Resolver.ContentAt | libs/resources/ResourceResolver.js:29 | `contents[k]` is the stored node exactly when `k` is a key, and `undefined` otherwise |
| Resolver.ChildrenScan | libs/resources/ResourceResolver.js:39-43 | every resource the scan makes is stored at a key one segment below the directory, with the type derived from its node |
| Resolver.ChildrenScanThrows | libs/resources/ResourceResolver.js:41 | the children scan derives the type of every key below the directory, so it throws exactly when one of them has no type |
| Resolver.ChildrenScanKeeps | libs/resources/ResourceResolver.js:39-43 | a children scan that succeeds keeps exactly the keys whose `dirname` is the directory, each once and in key order |
| Resolver.GetChildrenBridge | libs/resources/ResourceResolver.js:39 | the children scan over the enumeration order answers for every key of the contents |
| Resolver.GetChildren | libs/resources/ResourceResolver.js:36-45 | every child returned is the stored resource at a key one segment below the resource (`dirname` equals its path), typed from its node; every such key is returned, each once, in contents order; the call throws exactly when such a key holds an untyped node |
| Resolver.FindScan | libs/resources/ResourceResolver.js:70-74 | the scan makes only stored resources of the wanted type |
| Resolver.FindScanThrows | libs/resources/ResourceResolver.js:71 | the scan derives the type of every key, so it throws exactly when some key holds a node without a type |
| Resolver.FindScanKeeps | libs/resources/ResourceResolver.js:70-74 | a scan that succeeds keeps exactly the keys whose type is the wanted one, each once and in key order |
| Resolver.FindResources | libs/resources/ResourceResolver.js:68-76 | the result holds exactly the keys whose derived type equals the wanted type, each once and in contents order; any untyped node anywhere makes it throw |
| Resolver.FindResourcesBridge | libs/resources/ResourceResolver.js:70 | the scan over the enumeration order answers for every key of the contents |
| Resolver.SubsequenceOfDistinct | libs/resources/ResourceResolver.js:37-44 | keeping some keys of a repeat-free key order, in order, gives a list without repeats; the children and type scans use it to keep their results free of repeats |
| ResourceView.Name | libs/Resource.js:14-16 | a resource's name has no '/'; for a path not ending in '/' it is a non-empty suffix of the path that starts the path or follows a '/' |
| ResourceView.Children | libs/Resource.js:18-20 | `children` (and `listChildren()`, lines 34-36, the same call) are the stored resources one segment below, typed from their nodes, all of them, each once and in contents order, and fail exactly when one of them has no type |
| ResourceView.ValueMap | libs/Resource.js:22-24 | a stored resource's value map is its node, or `undefined` when the path holds none; a synthetic resource's is its own content |
| ResourceView.ChildValueMap | libs/Resource.js:38-40 | the value map of a child fetched by `getChild` is the node stored at `path + '/' + name` |
| ResourceView.Parent | libs/Resource.js:26-28 | the parent is the stored resource at `dirname(path)`, typed from that node, made exactly when that node exists and has a type |
| ResourceView.Child | libs/Resource.js:38-40 | the child is the stored resource at `path + '/' + name`, typed from that node, made exactly when that node exists and has a type |
| ResourceView.NameOfChild | libs/Resource.js:14-16 | a child fetched by a segment name is called by that name |
| ResourceView.ChildParentRoundTrip | libs/Resource.js:26-28 | for a resource found at a path other than the root, the parent of any child is that resource again |
| ResourceView.RootChildParentIsDoubleSlash | libs/resources/ResourceResolver.js:53 | for every segment `n`, the child `n` of the root `/` is at `//n`, and `dirname` of that is `//` rather than `/` |
| ResourceNames.SplitDots | libs/HTLRender.js:201 | `split('.')` yields at least one piece and no piece contains a '.' |
| ResourceNames.JoinSplit | libs/HTLRender.js:201-205 | joining the pieces of a split with '.' gives back the string |
| ResourceNames.SplitDotsHead | libs/HTLRender.js:204 | a split has one piece exactly when there is no '.', and that piece is then the whole string |
| ResourceNames.SplitDotsPrefix | libs/HTLRender.js:201-202 | the first piece of `a.b` is `a` and the rest are the pieces of `b` |
| ResourceNames.ParseName | libs/HTLRender.js:199-206 | a name is absolute exactly when it starts with '/', and then only its last segment is parsed; the resource name has no '.'; there are no selectors exactly when the name has no '.'; the resource name plus '.' and the selectors gives back the parsed name |
| ResourceNames.SelectorsKeepDots | libs/HTLRender.js:204-206 | in `base.a.b` the resource name is `base` and the selectors are `a.b`, dots kept |
| ResourceNames.ParseNameExample | libs/HTLRender.js:199-206 | `child.teaser` is the relative name `child` with the selector `teaser` |
| Bindings.CustomNames | libs/BindingsProvider.js:22 | the configured keys in order |
| Bindings.Names | libs/BindingsProvider.js:20-24 | `model` first, then the configured keys in order, and just `model` when nothing is configured |
| Bindings.ModelPath | libs/BindingsProvider.js:36 | the model script is `@model.js` in the component directory: below an absolute type, below `<sourceDir>/<type>` for a relative one, or directly in the source directory for an empty type |
| Bindings.WriteBindings | libs/BindingsProvider.js:42-48 | every configured key ends up holding its binding's value under the current globals: the value itself or the function's result; every earlier key that no binding names keeps its value |
| Bindings.Evaluate | libs/BindingsProvider.js:44-46 | a binding's value is the binding itself, or the function's result on the current globals |
| Bindings.Provide | libs/BindingsProvider.js:34-50 | the keys are `model` if the model script exists, plus every configured key; each configured key holds its binding's value; `model` holds the script's value unless a binding of that name replaces it |
| Bindings.ProvideAsWritten | libs/BindingsProvider.js:11-14 | as constructed by the plugin, `compilation` is `undefined`, so `provide` throws exactly when the model script exists; otherwise it gives what `provide` gives, with `model` only if a binding names it |
| Bindings.ModelScriptThrowsAsWritten | libs/BindingsProvider.js:37-38 | with a model script present and no bindings, the call as constructed throws, where the intended call gives `model` the script's value |
| Bindings.ProvideKeysDeclared | libs/BindingsProvider.js:34-50 | every key `provide` writes is one of the `names` |
| Bindings.ProvideNothing | libs/BindingsProvider.js:35-49 | without configured bindings and without a model script the result is empty |
| Bindings.CustomModelOverrides | libs/BindingsProvider.js:40-46 | a configured binding named `model` wins over the model script |
| HtlRender.Spread | libs/HTLRender.js:228-231 | `{...a, ...b}` has the keys of both, and `b` wins where both have one |
| HtlRender.SpreadMergesBindings | libs/HTLRender.js:228-231 | spreading the provided bindings over a base record merges them: the keys of the base, `model` when the script exists and every configured key; `model` holds the script's value on the base unless a binding replaces it, each configured key its binding's value on the base, and every other key its base value |
| HtlRender.RuntimeVars | libs/HTLRender.js:138-140 | the five structural names, then the binding names, with `model` among them |
| HtlRender.TemplateFile | libs/HTLRender.js:233-238 | with non-empty selectors the template is `<selectors>.html` in the component directory; without them it is `<component directory>/<last segment of the type>.html` |
| HtlRender.FirstExisting | libs/HTLRender.js:156-159 | the result is the first candidate that exists, and there is none exactly when no candidate exists |
| HtlRender.ResolveScript | libs/HTLRender.js:154-162 | the candidates are tried in order: type directory, then source directory (both with `baseDir`); when neither exists the result is `<sourceDir>/<uri>`; the result exists or is that fallback |
| HtlRender.ModuleImport | libs/HTLRender.js:171-184 | an import is generated exactly when the module or the built-in model of that name exists; it imports the module itself when that exists, else the built-in model, under the requested variable |
| HtlRender.Include | libs/HTLRender.js:249-255 | an included file renders with the includer's globals unchanged, an absolute file as given and a relative one below the working directory |
| HtlRender.ResolverIn | libs/HTLRender.js:197 | resolver calls succeed exactly when the globals hold the resolver |
| HtlRender.ResourceIn | libs/HTLRender.js:196 | the parent is the resource the globals hold; anything else makes its use throw |
| HtlRender.LocateAsWritten | libs/HTLRender.js:208-214 | as written, an absolute name is looked up with `getResource` at its directory plus the resource name, and throws without the resolver; a relative name is looked up with the parent's `getChild`: it succeeds exactly when that child is stored with a type and never yields "nothing" |
| HtlRender.Locate | libs/HTLRender.js:208-214 | an absolute name is looked up with `getResource` at its directory plus the resource name, and throws without the resolver; a relative one is the `getResource` of the parent's path plus the resource name, so an absent child is reported as nothing |
| HtlRender.AbsoluteTarget | libs/HTLRender.js:210-211 | the lookup path of an absolute name is named after its resource name and lies in the name's directory |
| HtlRender.Target | libs/HTLRender.js:216-218 | a found resource is used as it is; else, with a type override, the resolver is needed, and with it and a parent the target is a synthetic resource of the override type with empty content at the parent's path plus the resource name; with no override, reading `valueMap` of `null` throws |
| HtlRender.ChildGlobals | libs/HTLRender.js:220-231 | a rendered resource's globals define all five structural names; unless a binding replaces them, they carry over the resolver, page properties and WCM mode and hold the resource and its value map; the bindings provided for the resource, evaluated on those five, are merged in and win |
| HtlRender.BaseChildGlobals | libs/HTLRender.js:220-226 | a rendered resource's own globals have exactly the five structural names: the resolver, page properties and WCM mode carried over, the resource, and its value map |
| HtlRender.LoadFound | libs/HTLRender.js:216-239 | a lookup failure or a target failure is passed on; a render uses the target's template file for the parsed selectors and the target's globals |
| HtlRender.LoadResourceAsWritten | libs/HTLRender.js:194-240 | the resource loader as written fails with its lookup's fault; a found resource renders with its type's template for the parsed selectors and exactly the child globals of that resource (structural names and merged bindings); when nothing is found, no override throws, and an override renders the synthetic resource below the parent with the override's template, empty properties and that resource under `resource`; the resolver is handed down unchanged |
| HtlRender.LoadResource | libs/HTLRender.js:194-240 | a lookup fault is passed on; a found resource renders with its type's template for the parsed selectors and exactly the child globals of that resource (structural names and merged bindings); when nothing is found, absolute or relative, no override throws, and an override renders the synthetic resource below the parent with the override's template, empty properties and that resource under `resource`; the resolver is handed down unchanged |
| HtlRender.ComponentGlobals | libs/HTLRender.js:93-103 | a component's top-level globals hold the resource, its value map, WCM mode disabled and the given resolver, each unless a provided binding replaces it; the bindings provided for the component, evaluated on those four, are merged in and win |
| HtlRender.ComponentBase | libs/HTLRender.js:93-98 | before the bindings, a component's globals are exactly WCM mode disabled, the resource, the given resolver and its value map |
| HtlRender.RendComponentAsWritten | libs/HTLRender.js:82-108 | as written, a component renders exactly when its template file exists, with that file; its globals hold `undefined` under `resourceResolver` and, unless a binding replaces them, the resource, WCM mode disabled and its value map; the provided bindings are merged in |
| HtlRender.RendComponent | libs/HTLRender.js:82-108 | a component renders exactly when its template file exists, with that file; its globals hold the resolver, the resource, WCM mode disabled and its value map unless a binding replaces them, and the bindings provided for the component are merged in |
| HtlRender.PageContentName | libs/HTLRender.js:69 | the page template's `jcr:content` is a relative name without selectors |
| HtlRender.PageGlobals | libs/HTLRender.js:56-62 | a page needs a `jcr:content` child, and fails with that lookup's fault otherwise; its globals are exactly the five names: the page, its value map, WCM mode disabled, the given resolver and the stored `jcr:content` node as page properties, with no binding merged in |
| HtlRender.RendPageAsWritten | libs/HTLRender.js:55-70 | as written, a page renders exactly when it has a typed `jcr:content` child, with that child's template; unless bindings replace them, the child render sees that child as `resource` and the stored `jcr:content` node as page properties, and `undefined` under `resourceResolver` |
| HtlRender.RendPage | libs/HTLRender.js:55-70 | a page renders exactly when it has a typed `jcr:content` child, with that child's template; the resolver reaches the child and, unless bindings replace them, the child is `resource` and the stored `jcr:content` node is page properties |
| RenderProperties.TemplateFileLayout | libs/HTLRender.js:233-238 | the template sits directly in the component directory and is named after the selectors or, without them, after the type's last segment (`cq/Page` gives `cq/Page/Page.html`) |
| RenderProperties.ChildGlobalsDeclared | libs/HTLRender.js:138-140 | every name in a rendered resource's globals is a runtime variable of the compiled templates |
| RenderProperties.RelativeFallbackUnreachable | libs/HTLRender.js:213-218 | as written, a relative name whose child is absent throws whatever type override is given |
| RenderProperties.RelativeFallbackExample | libs/HTLRender.js:213-218 | rendering `missing` below `/page` with override `site/text` throws as written and renders with the corrected lookup |
| RenderProperties.NoDotName | libs/HTLRender.js:201-206 | a relative name without '.' is its own resource name, with no selectors |
| RenderProperties.RelativeFallbackSynthesises | libs/HTLRender.js:216-218 | with the corrected lookup, that case renders a synthetic resource of the override type at `parent/name`, with empty properties and the override's template |
| RenderProperties.LocateAgreesWhenChildExists | libs/HTLRender.js:213 | where the child exists, the corrected lookup finds what `getChild` finds |
| RenderProperties.AbsoluteNameFailsFromComponent | libs/HTLRender.js:96 | as written, every absolute `data-sly-resource` in a component's template throws, because the resolver is `undefined`, unless a binding is named `resourceResolver` |
| RenderProperties.UndefinedResolverInherited | libs/HTLRender.js:221 | an `undefined` resolver is handed down to every resource rendered below |
| RenderProperties.AbsoluteNameResolvesFromComponent | libs/HTLRender.js:209-211 | with the resolver in a rendered component's globals, an absolute name `<dir>/<n>` whose target is stored with a type renders that stored resource, and the resolver is handed on |
| RenderProperties.AbsoluteTargetOfName | libs/HTLRender.js:210-211 | an absolute name `<dir>/<n>` is looked up at `<dir>/<resource name of n>` |
| RenderProperties.PagePropertiesReachContent | libs/HTLRender.js:57 | a page whose `jcr:content` is stored with a type renders, and, unless a binding provided to the child replaces it, that render sees the stored `jcr:content` node as page properties |
| RenderProperties.PagePropertiesReachContentAsWritten | libs/HTLRender.js:57 | as written too, a page whose `jcr:content` is stored with a type renders, with that child as `resource` and its stored node as page properties |
| RenderProperties.ModelReachesComponent | libs/HTLRender.js:100-103 | a component whose model script exists renders with `model` bound to the script's value on the component's own globals, unless a configured binding of that name replaces it |
| RenderProperties.BindingReachesChild | libs/HTLRender.js:228-231 | a resource found by `data-sly-resource` renders with every configured binding under its name, evaluated on the resource's own globals |
| RenderProperties.ModuleImportFirstExisting | libs/HTLRender.js:173-177 | the imported module is the first existing one of the module and the built-in model |

## Left out

- Finding files and reading them are left out: `glob.sync`, `readFileSync`, `JSON.parse` and dependency registration. The content files come as a list of (directory, name, parsed value).
- `readContents` runs the files through `Promise.all`. Each `_readContent` runs to completion without awaiting, so the model explodes the files one by one in list order.
- The "filePath is empty" error of `_readContent` is left out. Files come from a directory walk, so the path is never empty.
- Path normalisation is not modelled. `path.join` and `path.resolve` lose `.`, `..` and doubled slashes. `Resolve` keeps only "an absolute right-hand side wins, an empty one is skipped". It does not prefix the process working directory. Content directories and names are plain segments.
- JavaScript puts integer-like object keys first when it enumerates them. Object fields are instead taken in their enumeration order as given. Content paths always start with '/', so the content map's own order is exact.
- Resolver.ResourceTypeOf: a truthy `sling:resourceType` that is not a string is returned raw by the code. The model reports `NonStringResourceType` instead, because a resource type is a string everywhere else. A truthy non-string `jcr:primaryType` throws in the code and is `ReplaceOnNonString` in the model (`Resolver.PrimaryTypeNotString`).
- Bindings.Provide: models the provider constructed as its constructor expects, `(bindings, options)` with the compilation in `options`. The plugin's entry point passes the default model name in that place (Finding 3); `Bindings.ProvideAsWritten` models that call. The configured default model name itself is never read.
- The entry point calls `readContents()` without the `{ compilation }` argument it destructures. That wiring is part of `index.js` and is not modelled; the reader is modelled as called with its argument.
- `findResources` compares with `==`. It is modelled on strings only; the regular expression the plugin's entry point passes is not modelled.
- JSON objects are lists of fields, so the type admits an object with two fields of one name. Parsed content never has one, and the explode lemmas that need distinct names require it (`Clean`).
- `makeSynteticResource` is called by the resource loader but not defined on the resolver. The model follows its call site: content `{}`, the given path and the given type.
- A synthetic resource's value map is that content. Its other accessors go through the resolver by path.
- ResourceView.ChildParentRoundTrip excludes the root path `/`, where the round trip does not hold. `ResourceView.RootChildParentIsDoubleSlash` shows why.
- Compiling and executing templates is left out. This covers `loadComponents`, the compiled-template cache, `_rendFile`, the `Compiler` and `Runtime` objects, and the literal template that `rendPage` compiles. A render is the value `RenderCall(file, globals)`.
- HtlRender.RendPage stops at the one resource load of the page template, `jcr:content` with no options.
- Model scripts and `JsUseProvider` are the parameter `loadModel`. Binding functions are functions of the globals.
- The import statement the module import generator returns is modelled as a record (variable, provider, module file) rather than as source text.
- Awaiting, logging and `compilation.fileDependencies` registration are left out.
- `rendComponent`'s selectors are a string or nothing. Other values, such as arrays, are not modelled.
- Configured bindings are an object or absent. Other truthy values are not modelled.
- `index.js` (webpack wiring, asset emission), the superseded `ComponentsRender.js` and the test configuration are left out.

## Findings

| source | as written | input that shows it | evidently intended | confidence | as-written member | corrected member |
|---|---|---|---|---|---|---|
| libs/HTLRender.js:213-218 | a relative name is looked up with `parent.getChild(name)`; for an absent child, `getChild` derives the type of `undefined` and throws before `if (!resource && options.resourceType)` is reached | parent `/page` with no `/page/missing`, `data-sly-resource="missing"` with `resourceType: 'site/text'` (`RenderProperties.RelativeFallbackExample`, `RenderProperties.RelativeFallbackUnreachable`) | an absent child yields no resource, so the type override gives a synthetic `site/text` resource at `/page/missing` (`RenderProperties.RelativeFallbackSynthesises`) | medium, not executed | HtlRender.LoadResourceAsWritten | HtlRender.LoadResource |
| libs/HTLRender.js:96 | the component's globals take `componentResource.resourceResolver`, but `Resource` has no such property, only `_resourceResolver`, so the value is `undefined` (the same holds for `rendPage` at line 60); it is handed down to every nested render | any component whose template holds an absolute `data-sly-resource`, e.g. `/content/site/header` (`RenderProperties.AbsoluteNameFailsFromComponent`) | the globals hold the resolver, so absolute names resolve (`RenderProperties.AbsoluteNameResolvesFromComponent`) | high, not executed | HtlRender.RendComponentAsWritten | HtlRender.RendComponent |
| libs/BindingsProvider.js:11-14 | the plugin (index.js, line 89) constructs `new BindingsProvider(this.bindings, this.defaultModelName, options)`, but the constructor takes `(bindings, options)`, so `options` is the model name and `this.compilation` is `undefined`; `provide` then reads `this.compilation.fileDependencies` (line 38) and throws | any resource whose type directory holds `@model.js` (`Bindings.ModelScriptThrowsAsWritten`) | the provider gets the compilation options, registers the script and binds its value to `model` | high, not executed | Bindings.ProvideAsWritten | Bindings.Provide |

=== FILE: bindings.dfy ===
/** The bindings provider: the names a compiled template may refer to
    besides the structural globals, and the values those names get for one
    resource.

    The values are left abstract (`V`). Loading and running a component's
    model script and calling a configured binding function are parameters:
    `loadModel(file, globals)` is what `new Model().use(globals)` yields for
    the script at `file`, and a `Computed` binding is a function of the
    globals it is called on. Whether a file exists is the predicate
    `isFile`. */
module Bindings {
  import opened Results
  import opened PathOps

  const ModelKey := "model"
  const ModelFile := "@model.js"

  /** A configured binding: a plain value, or a function called with the
      current globals as `this`. */
  datatype Binding<!V> = Static(value: V) | Computed(call: map<string, V> -> V)

  datatype Custom<!V> = Custom(name: string, binding: Binding<V>)

  /** The custom bindings of the plugin configuration, an object: its keys
      are distinct and listed in enumeration order. */
  predicate DistinctNames<V>(cs: seq<Custom<V>>) {
    forall i, j :: 0 <= i < j < |cs| ==> cs[i].name != cs[j].name
  }

  type CustomBindings<!V> = cs: seq<Custom<V>> | DistinctNames(cs) witness []

  /** The configured keys, as a set. */
  function NameSet<V>(cs: seq<Custom<V>>): set<string> {
    set i | 0 <= i < |cs| :: cs[i].name
  }

  function CustomNames<V>(cs: seq<Custom<V>>): (ns: seq<string>)
    ensures |ns| == |cs| && forall i :: 0 <= i < |cs| ==> ns[i] == cs[i].name
  {
    if |cs| == 0 then [] else [cs[0].name] + CustomNames(cs[1..])
  }

  /** The `names` getter: `model` first, then the configured keys in order;
      just `model` when nothing is configured. */
  function Names<V>(custom: Option<CustomBindings<V>>): (ns: seq<string>)
    ensures |ns| >= 1 && ns[0] == ModelKey
    ensures custom.None? ==> ns == [ModelKey]
    ensures custom.Some? ==> |ns| == 1 + |custom.value|
    ensures custom.Some? ==> forall i :: 0 <= i < |custom.value| ==> ns[i + 1] == custom.value[i].name
  {
    match custom
    case None => [ModelKey]
    case Some(cs) => [ModelKey] + CustomNames(cs)
  }

  /** The value a binding takes under the given globals. */
  function Evaluate<V>(b: Binding<V>, globals: map<string, V>): (v: V)
    ensures b.Static? ==> v == b.value
    ensures b.Computed? ==> v == b.call(globals)
  {
    match b
    case Static(v) => v
    case Computed(f) => f(globals)
  }

  /** Where a component's model script lives: `<sourceDir>/<type>/@model.js`. */
  function ModelPath(sourceDir: string, resourceType: string): (p: string)
    ensures |resourceType| > 0 && resourceType[0] == '/' ==> p == resourceType + "/" + ModelFile
    ensures resourceType == "" ==> p == sourceDir + "/" + ModelFile
    ensures |resourceType| > 0 && resourceType[0] != '/' ==> p == sourceDir + "/" + resourceType + "/" + ModelFile
  {
    Resolve(Resolve(sourceDir, resourceType), ModelFile)
  }

  /** The loop over the configured bindings: each key is written in turn,
      so the keys already in `acc` keep their value unless a binding of the
      same name overwrites it. */
  function WriteBindings<V>(acc: map<string, V>, cs: CustomBindings<V>, globals: map<string, V>): (r: map<string, V>)
    ensures r.Keys == acc.Keys + NameSet(cs)
    ensures forall i :: 0 <= i < |cs| ==> r[cs[i].name] == Evaluate(cs[i].binding, globals)
    ensures forall k :: k in acc && (forall i :: 0 <= i < |cs| ==> cs[i].name != k) ==> r[k] == acc[k]
    decreases |cs|
  {
    if |cs| == 0 then acc
    else
      var c := cs[0];
      var rest: CustomBindings<V> := cs[1..];
      var r := WriteBindings(acc[c.name := Evaluate(c.binding, globals)], rest, globals);
      assert forall i :: 0 <= i < |rest| ==> rest[i] == cs[i + 1];
      assert NameSet(cs) == {c.name} + NameSet(rest) by {
        forall x | x in NameSet(cs)
          ensures x in {c.name} + NameSet(rest)
        {
          var i :| 0 <= i < |cs| && cs[i].name == x;
          if i > 0 {
            assert rest[i - 1].name == x;
          }
        }
      }
      r
  }

  /** `provide(sourceDir, resource, globals)` for a resource of type
      `resourceType`: `model` from the model script when the script exists,
      then every configured binding, evaluated under `globals`. A configured
      binding named `model` is written last and so wins over the script. */
  function Provide<V>(sourceDir: string, resourceType: string, custom: Option<CustomBindings<V>>,
                      globals: map<string, V>, isFile: string -> bool,
                      loadModel: (string, map<string, V>) -> V): (r: map<string, V>)
    ensures var mp := ModelPath(sourceDir, resourceType);
            var declared := if custom.None? then {} else NameSet(custom.value);
            r.Keys == (if isFile(mp) then {ModelKey} else {}) + declared
    ensures custom.Some? ==> forall i :: 0 <= i < |custom.value| ==>
              r[custom.value[i].name] == Evaluate(custom.value[i].binding, globals)
    ensures var mp := ModelPath(sourceDir, resourceType);
            isFile(mp) && (custom.None? || forall i :: 0 <= i < |custom.value| ==> custom.value[i].name != ModelKey) ==>
              r[ModelKey] == loadModel(mp, globals)
  {
    var mp := ModelPath(sourceDir, resourceType);
    var base := if isFile(mp) then map[ModelKey := loadModel(mp, globals)] else map[];
    match custom
    case None => base
    case Some(cs) => WriteBindings(base, cs, globals)
  }

  /** `provide` of the provider as the plugin constructs it: the plugin
      passes the default model name where the compilation options belong,
      so the provider's `compilation` is `undefined`, and registering an
      existing model script as a dependency reads `fileDependencies` of
      `undefined`. Without a model script it provides what `Provide` does. */
  function ProvideAsWritten<V>(sourceDir: string, resourceType: string, custom: Option<CustomBindings<V>>,
                               globals: map<string, V>, isFile: string -> bool,
                               loadModel: (string, map<string, V>) -> V): (r: Result<map<string, V>>)
    ensures r.Fail? <==> isFile(ModelPath(sourceDir, resourceType))
    ensures r.Fail? ==> r.fault == ReadOfUndefined
    ensures r.Ok? ==> ModelKey !in r.value || (custom.Some? && ModelKey in NameSet(custom.value))
    ensures r.Ok? ==> r.value == Provide(sourceDir, resourceType, custom, globals, isFile, loadModel)
  {
    if isFile(ModelPath(sourceDir, resourceType)) then Fail(ReadOfUndefined)
    else Ok(Provide(sourceDir, resourceType, custom, globals, isFile, loadModel))
  }

  // ------------------------------------------------------------ lemmas

  /** As constructed by the plugin, a component with a model script and no
      configured `model` binding never gets its model: the provider throws,
      where the provider with its compilation options yields the script's
      value under `model`. */
  lemma ModelScriptThrowsAsWritten<V>(sourceDir: string, resourceType: string, globals: map<string, V>,
                                      isFile: string -> bool, loadModel: (string, map<string, V>) -> V)
    requires isFile(ModelPath(sourceDir, resourceType))
    ensures ProvideAsWritten(sourceDir, resourceType, None, globals, isFile, loadModel) == Fail(ReadOfUndefined)
    ensures Provide(sourceDir, resourceType, None, globals, isFile, loadModel)
            == map[ModelKey := loadModel(ModelPath(sourceDir, resourceType), globals)]
  {
  }

  /** Every key `provide` writes is one of the declared `names`, so the
      compiled template knows all of them. */
  lemma ProvideKeysDeclared<V>(sourceDir: string, resourceType: string, custom: Option<CustomBindings<V>>,
                               globals: map<string, V>, isFile: string -> bool,
                               loadModel: (string, map<string, V>) -> V)
    ensures forall k :: k in Provide(sourceDir, resourceType, custom, globals, isFile, loadModel) ==> k in Names(custom)
  {
    var r := Provide(sourceDir, resourceType, custom, globals, isFile, loadModel);
    var ns := Names(custom);
    forall k | k in r ensures k in ns {
      if k != ModelKey {
        var cs := custom.value;
        var i :| 0 <= i < |cs| && cs[i].name == k;
        assert ns[i + 1] == k;
      }
    }
  }

  /** With no configured bindings and no model script there is nothing to
      provide. */
  lemma ProvideNothing<V>(sourceDir: string, resourceType: string, globals: map<string, V>,
                          isFile: string -> bool, loadModel: (string, map<string, V>) -> V)
    requires !isFile(ModelPath(sourceDir, resourceType))
    ensures Provide(sourceDir, resourceType, None, globals, isFile, loadModel) == map[]
    ensures Provide(sourceDir, resourceType, Some([]), globals, isFile, loadModel) == map[]
  {
  }

  /** A configured `model` binding hides the model script. */
  lemma CustomModelOverrides<V>(sourceDir: string, resourceType: string, cs: CustomBindings<V>,
                                globals: map<string, V>, isFile: string -> bool,
                                loadModel: (string, map<string, V>) -> V, i: nat)
    requires i < |cs| && cs[i].name == ModelKey
    ensures Provide(sourceDir, resourceType, Some(cs), globals, isFile, loadModel)[ModelKey]
            == Evaluate(cs[i].binding, globals)
  {
  }
}

=== FILE: content_reader.dfy ===
/** The content reader: every JSON file under `content/<project>` is parsed
    and "exploded" into one flat map from absolute path to content node.

    The map is a JavaScript object, so besides its key/value pairs it has an
    enumeration order that the resolver's scans later follow: a key enters
    the order when it is first assigned and keeps its place when it is
    assigned again. `Contents` keeps both. */
module ContentReader {
  import opened Results
  import opened JsonValues
  import opened PathOps

  datatype Tree = Tree(order: seq<string>, nodes: map<string, Json>) {
    /** The order lists every key exactly once. */
    ghost predicate Valid() {
      && (forall i, j :: 0 <= i < j < |order| ==> order[i] != order[j])
      && (forall k :: k in nodes <==> k in order)
    }
  }

  type Contents = t: Tree | t.Valid() witness Tree([], map[])

  /** `this.contents = {}`. */
  const Empty: Contents := Tree([], map[])

  /** `contents[k] = v`. */
  function Put(t: Contents, k: string, v: Json): (r: Contents)
    ensures r.nodes == t.nodes[k := v]
    ensures t.order <= r.order
  {
    if k in t.nodes then Tree(t.order, t.nodes[k := v])
    else Tree(t.order + [k], t.nodes[k := v])
  }

  // ------------------------------------------------------------ the paths

  /** The paths an explode of `v` at `p` assigns: `p` itself and, for every
      object-typed entry `f`, the paths of that entry's value at `p/f`. */
  ghost function Paths(v: Json, p: string): set<string>
    decreases v, 1
  {
    {p} + PathsFrom(v, p, 0)
  }

  /** The paths contributed by the entries of `v` from index `i` on. */
  ghost function PathsFrom(v: Json, p: string, i: nat): set<string>
    requires i <= |Entries(v)|
    decreases v, 0, |Entries(v)| - i
  {
    var es := Entries(v);
    if i == |es| then {}
    else
      (if IsObjectTyped(es[i].value) then Paths(es[i].value, p + "/" + es[i].name) else {})
      + PathsFrom(v, p, i + 1)
  }

  /** The number of object-typed values strictly inside `v`, at any depth. */
  ghost function ObjectCount(v: Json): nat
    decreases v, 1
  {
    ObjectCountFrom(v, 0)
  }

  ghost function ObjectCountFrom(v: Json, i: nat): nat
    requires i <= |Entries(v)|
    decreases v, 0, |Entries(v)| - i
  {
    var es := Entries(v);
    if i == |es| then 0
    else
      (if IsObjectTyped(es[i].value) then 1 + ObjectCount(es[i].value) else 0)
      + ObjectCountFrom(v, i + 1)
  }

  /** No two nodes of `v` can be exploded onto the same path: at every depth
      the entry names are distinct and contain no '/'. */
  ghost predicate Clean(v: Json)
    decreases v
  {
    var es := Entries(v);
    && (forall i :: 0 <= i < |es| ==> '/' !in es[i].name && Clean(es[i].value))
    && (forall i, j :: 0 <= i < j < |es| ==> es[i].name != es[j].name)
  }

  // ------------------------------------------------------------- explode

  /** `_explode(content, contentPath)`: store `v` at `p`, then explode every
      object-typed entry of `v` at `p/<name>`, in enumeration order.

      The result holds `v` itself at `p`; its keys are the old keys plus
      exactly the paths of `v`, none is removed and the old ones keep their
      place in the order; every old key that `v` does not reach keeps its
      value. */
  function Explode(t: Contents, v: Json, p: string): (r: Contents)
    ensures r.nodes.Keys == t.nodes.Keys + Paths(v, p)
    ensures t.order <= r.order
    ensures forall k :: k in t.nodes && k !in Paths(v, p) ==> r.nodes[k] == t.nodes[k]
    ensures r.nodes[p] == v
    decreases v, 1
  {
    PathsFromLonger(v, p, 0);
    ExplodeFields(Put(t, p, v), v, p, 0)
  }

  /** The loop of `_explode` from entry `i` on. */
  function ExplodeFields(t: Contents, v: Json, p: string, i: nat): (r: Contents)
    requires i <= |Entries(v)|
    ensures r.nodes.Keys == t.nodes.Keys + PathsFrom(v, p, i)
    ensures t.order <= r.order
    ensures forall k :: k in t.nodes && k !in PathsFrom(v, p, i) ==> r.nodes[k] == t.nodes[k]
    decreases v, 0, |Entries(v)| - i
  {
    var es := Entries(v);
    if i == |es| then t
    else
      var e := es[i];
      var t1 := if IsObjectTyped(e.value) then Explode(t, e.value, p + "/" + e.name) else t;
      ExplodeFields(t1, v, p, i + 1)
  }

  // ------------------------------------------------------ path geometry

  lemma UnderParent(q: string, p: string, n: string)
    requires Under(q, p + "/" + n)
    ensures Under(q, p) && q != p
  {
    var pn := p + "/" + n;
    UnderPrefix(q, pn);
    assert q[..|p|] == pn[..|p|] == p by {
      assert q[..|pn|][..|p|] == q[..|p|];
    }
    assert q[|p|] == pn[|p|] == '/';
  }

  /** Every path of `v` at `p` is `p` or lies below it. */
  lemma {:induction false} PathsUnder(v: Json, p: string, q: string)
    requires q in Paths(v, p)
    ensures Under(q, p)
    decreases v, 1
  {
    if q != p {
      var m := PathsFromWitness(v, p, 0, q);
      UnderParent(q, p, Entries(v)[m].name);
    }
  }

  /** A path contributed by entries `i..` lies at or below one of them. */
  lemma {:induction false} PathsFromWitness(v: Json, p: string, i: nat, q: string) returns (m: nat)
    requires i <= |Entries(v)| && q in PathsFrom(v, p, i)
    ensures i <= m < |Entries(v)| && IsObjectTyped(Entries(v)[m].value)
    ensures Under(q, p + "/" + Entries(v)[m].name)
    decreases v, 0, |Entries(v)| - i
  {
    var es := Entries(v);
    var e := es[i];
    if IsObjectTyped(e.value) && q in Paths(e.value, p + "/" + e.name) {
      PathsUnder(e.value, p + "/" + e.name, q);
      m := i;
    } else {
      m := PathsFromWitness(v, p, i + 1, q);
    }
  }

  lemma PathsFromLonger(v: Json, p: string, i: nat)
    requires i <= |Entries(v)|
    ensures p !in PathsFrom(v, p, i)
  {
    if p in PathsFrom(v, p, i) {
      var m := PathsFromWitness(v, p, i, p);
      UnderParent(p, p, Entries(v)[m].name);
    }
  }

  /** In a clean value, a path contributed by entries `i..` is not at or
      below any earlier entry `j`. */
  lemma PathsFromAvoidsEarlier(v: Json, p: string, i: nat, j: nat, q: string)
    requires Clean(v) && j < i <= |Entries(v)| && q in PathsFrom(v, p, i)
    ensures !Under(q, p + "/" + Entries(v)[j].name)
  {
    var es := Entries(v);
    var m := PathsFromWitness(v, p, i, q);
    UnderDistinctSiblings(q, p, es[m].name, es[j].name);
  }

  // --------------------------------------------------------- properties

  /** Aliasing: in a clean value, the node stored at `p/f` is the very value
      of the object-typed entry `f` of `v`. */
  lemma ExplodeAliasing(t: Contents, v: Json, p: string, j: nat)
    requires Clean(v) && j < |Entries(v)| && IsObjectTyped(Entries(v)[j].value)
    ensures var e, r := Entries(v)[j], Explode(t, v, p);
            p + "/" + e.name in r.nodes && r.nodes[p + "/" + e.name] == e.value
  {
    ExplodeFieldsKeepsEntry(Put(t, p, v), v, p, 0, j);
  }

  lemma {:induction false} ExplodeFieldsKeepsEntry(t: Contents, v: Json, p: string, i: nat, j: nat)
    requires Clean(v) && i <= j < |Entries(v)| && IsObjectTyped(Entries(v)[j].value)
    ensures var e, r := Entries(v)[j], ExplodeFields(t, v, p, i);
            p + "/" + e.name in r.nodes && r.nodes[p + "/" + e.name] == e.value
    decreases j - i
  {
    var e := Entries(v)[i];
    var t1 := if IsObjectTyped(e.value) then Explode(t, e.value, p + "/" + e.name) else t;
    ExplodeFieldsStep(t, v, p, i);
    if i < j {
      ExplodeFieldsKeepsEntry(t1, v, p, i + 1, j);
    } else {
      var q := p + "/" + e.name;
      if q in PathsFrom(v, p, i + 1) {
        PathsFromAvoidsEarlier(v, p, i + 1, j, q);
      }
      StoredEntrySurvives(t1, v, p, i + 1, q, e.value);
    }
  }

  /** One turn of the loop of `_explode`. */
  lemma ExplodeFieldsStep(t: Contents, v: Json, p: string, i: nat)
    requires i < |Entries(v)|
    ensures var e := Entries(v)[i];
            ExplodeFields(t, v, p, i)
            == ExplodeFields(if IsObjectTyped(e.value) then Explode(t, e.value, p + "/" + e.name) else t, v, p, i + 1)
  {
  }

  /** A stored key the remaining entries do not reach keeps its value. */
  lemma StoredEntrySurvives(t: Contents, v: Json, p: string, i: nat, q: string, x: Json)
    requires i <= |Entries(v)| && q in t.nodes && t.nodes[q] == x && q !in PathsFrom(v, p, i)
    ensures q in ExplodeFields(t, v, p, i).nodes && ExplodeFields(t, v, p, i).nodes[q] == x
  {
  }

  /** A field whose value is not object-typed gets no path of its own: in a
      clean value, `p/f` is not among the paths `v` reaches. */
  lemma ScalarFieldNoEntry(v: Json, p: string, j: nat)
    requires Clean(v) && j < |Entries(v)| && !IsObjectTyped(Entries(v)[j].value)
    ensures p + "/" + Entries(v)[j].name !in Paths(v, p)
  {
    var es := Entries(v);
    var q := p + "/" + es[j].name;
    assert q != p;
    if q in PathsFrom(v, p, 0) {
      var m := PathsFromWitness(v, p, 0, q);
      UnderDistinctSiblings(q, p, es[j].name, es[m].name);
    }
  }

  /** In a clean value the paths are pairwise distinct: there are exactly as
      many as the value has object-typed nodes, itself included. */
  lemma {:induction false} PathsCount(v: Json, p: string)
    requires Clean(v)
    ensures |Paths(v, p)| == 1 + ObjectCount(v)
    decreases v, 1
  {
    PathsFromLonger(v, p, 0);
    PathsFromCount(v, p, 0);
  }

  lemma {:induction false} PathsFromCount(v: Json, p: string, i: nat)
    requires Clean(v) && i <= |Entries(v)|
    ensures |PathsFrom(v, p, i)| == ObjectCountFrom(v, i)
    decreases v, 0, |Entries(v)| - i
  {
    var es := Entries(v);
    if i < |es| {
      PathsFromCount(v, p, i + 1);
      var e := es[i];
      if IsObjectTyped(e.value) {
        var here := Paths(e.value, p + "/" + e.name);
        var later := PathsFrom(v, p, i + 1);
        PathsCount(e.value, p + "/" + e.name);
        forall q | q in here
          ensures q !in later
        {
          PathsUnder(e.value, p + "/" + e.name, q);
          if q in later {
            PathsFromAvoidsEarlier(v, p, i + 1, i, q);
          }
        }
        assert here * later == {};
        assert |here + later| == |here| + |later|;
      }
    }
  }

  /** With no collisions inside `v` and none with keys already present, an
      explode adds exactly one entry per object-typed node of `v`. */
  lemma ExplodeCount(t: Contents, v: Json, p: string)
    requires Clean(v) && t.nodes.Keys !! Paths(v, p)
    ensures |Explode(t, v, p).nodes| == |t.nodes| + 1 + ObjectCount(v)
  {
    PathsCount(v, p);
    var r := Explode(t, v, p);
    assert |r.nodes.Keys| == |t.nodes.Keys| + |Paths(v, p)|;
  }

  // ------------------------------------------------------------- files

  /** A content file found under the project's content root: its directory
      relative to that root, its base name without `.json`, and its parsed
      content. */
  datatype ContentFile = ContentFile(dir: seq<string>, name: string, content: Json)

  /** A segment a directory walk can produce. */
  predicate PlainSegment(s: string) {
    Segment(s) && s != "." && s != ".."
  }

  predicate PlainSegments(segs: seq<string>) {
    forall i :: 0 <= i < |segs| ==> PlainSegment(segs[i])
  }

  /** The absolute path of a directory given by its segments. */
  function DirPath(dir: seq<string>): string {
    "/" + JoinSegments(dir)
  }

  /** The path `_readContent` stores a file's content at: its directory,
      plus `/<name>` unless the name is `index`. The result is absolute and
      Node's `dirname`/`basename` recover the directory and the name. */
  function ContentPath(dir: seq<string>, name: string): (r: string)
    requires PlainSegments(dir) && PlainSegment(name)
    ensures |r| > 0 && r[0] == '/'
    ensures name == "index" ==> r == DirPath(dir)
    ensures name != "index" && |dir| > 0 ==> r == DirPath(dir) + "/" + name
    ensures name != "index" && |dir| == 0 ==> r == "/" + name
    ensures name != "index" ==> Dirname(r) == DirPath(dir) && Basename(r) == name
  {
    if name == "index" then DirPath(dir)
    else
      var r := "/" + JoinSegments(dir + [name]);
      if |dir| == 0 then
        assert [name] == dir + [name];
        DirnameOfRootChild(name);
        BasenameOfChild("", name);
        assert "" + "/" + name == r;
        r
      else
        JoinSegmentsSnoc(dir, name);
        JoinSegmentsNamed(dir);
        assert r == DirPath(dir) + "/" + name;
        DirnameOfChild(DirPath(dir), name);
        BasenameOfChild(DirPath(dir), name);
        r
  }

  /** The path of one file, whose directory lies below `root` (the
      segments of `content/<project>`). */
  function FilePath(root: seq<string>, f: ContentFile): string
    requires PlainSegments(root) && PlainSegments(f.dir) && PlainSegment(f.name)
  {
    ContentPath(root + f.dir, f.name)
  }

  predicate PlainFile(f: ContentFile) {
    PlainSegments(f.dir) && PlainSegment(f.name)
  }

  predicate PlainFiles(root: seq<string>, files: seq<ContentFile>) {
    PlainSegments(root) && forall i :: 0 <= i < |files| ==> PlainFile(files[i])
  }

  /** Every path the files reach. */
  ghost function FilesPaths(root: seq<string>, files: seq<ContentFile>): set<string>
    requires PlainFiles(root, files)
  {
    if |files| == 0 then {}
    else Paths(files[0].content, FilePath(root, files[0])) + FilesPaths(root, files[1..])
  }

  /** Every path the files after the `i`-th reach. */
  ghost function LaterPaths(root: seq<string>, files: seq<ContentFile>, i: nat): set<string>
    requires PlainFiles(root, files) && i < |files|
  {
    assert PlainFiles(root, files[i + 1..]);
    FilesPaths(root, files[i + 1..])
  }

  /** `readContents`: every file is exploded at its path into the shared
      map, one after the other in the order they are listed. The keys are
      the old ones plus exactly the paths the files reach; a key no file
      reaches keeps its value; and a file's root path holds that file's
      content unless a later file reaches it. */
  function ReadInto(t: Contents, root: seq<string>, files: seq<ContentFile>): (r: Contents)
    requires PlainFiles(root, files)
    ensures r.nodes.Keys == t.nodes.Keys + FilesPaths(root, files)
    ensures t.order <= r.order
    ensures forall k :: k in t.nodes && k !in FilesPaths(root, files) ==> r.nodes[k] == t.nodes[k]
    ensures forall i :: 0 <= i < |files| && FilePath(root, files[i]) !in LaterPaths(root, files, i) ==>
              FilePath(root, files[i]) in r.nodes && r.nodes[FilePath(root, files[i])] == files[i].content
    ensures |files| > 0 ==> var last := files[|files| - 1];
                            FilePath(root, last) in r.nodes && r.nodes[FilePath(root, last)] == last.content
    decreases |files|
  {
    if |files| == 0 then t
    else
      assert PlainFiles(root, files[1..]);
      var e := Explode(t, files[0].content, FilePath(root, files[0]));
      var r := ReadInto(e, root, files[1..]);
      ReadIntoStep(t, root, files, e, r);
      ReadIntoRoots(root, files, e, r);
      ReadIntoLast(root, files, r);
      r
  }

  /** One step of `ReadInto` for its keys and its frame: exploding the
      first file into `t` gives `e`, and reading the other files into `e`
      gives `r`. */
  lemma ReadIntoStep(t: Contents, root: seq<string>, files: seq<ContentFile>, e: Contents, r: Contents)
    requires PlainFiles(root, files) && |files| > 0 && PlainFiles(root, files[1..])
    requires var first := Paths(files[0].content, FilePath(root, files[0]));
             && e.nodes.Keys == t.nodes.Keys + first
             && forall k :: k in t.nodes && k !in first ==> e.nodes[k] == t.nodes[k]
    requires r.nodes.Keys == e.nodes.Keys + FilesPaths(root, files[1..])
    requires forall k :: k in e.nodes && k !in FilesPaths(root, files[1..]) ==> r.nodes[k] == e.nodes[k]
    ensures r.nodes.Keys == t.nodes.Keys + FilesPaths(root, files)
    ensures forall k :: k in t.nodes && k !in FilesPaths(root, files) ==> r.nodes[k] == t.nodes[k]
  {
    var first := Paths(files[0].content, FilePath(root, files[0]));
    var later := FilesPaths(root, files[1..]);
    assert FilesPaths(root, files) == first + later;
    forall k | k in t.nodes && k !in first + later
      ensures r.nodes[k] == t.nodes[k]
    {
      assert k in e.nodes;
    }
  }

  /** One step of `ReadInto` for the files' roots: the first file's root
      survives the later files when they do not reach it, and every later
      file's clause carries over from the rest of the files. */
  lemma ReadIntoRoots(root: seq<string>, files: seq<ContentFile>, e: Contents, r: Contents)
    requires PlainFiles(root, files) && |files| > 0 && PlainFiles(root, files[1..])
    requires FilePath(root, files[0]) in e.nodes && e.nodes[FilePath(root, files[0])] == files[0].content
    requires e.nodes.Keys <= r.nodes.Keys
    requires forall k :: k in e.nodes && k !in FilesPaths(root, files[1..]) ==> r.nodes[k] == e.nodes[k]
    requires forall i :: 0 <= i < |files[1..]| && FilePath(root, files[1..][i]) !in LaterPaths(root, files[1..], i) ==>
               FilePath(root, files[1..][i]) in r.nodes && r.nodes[FilePath(root, files[1..][i])] == files[1..][i].content
    ensures forall i :: 0 <= i < |files| && FilePath(root, files[i]) !in LaterPaths(root, files, i) ==>
              FilePath(root, files[i]) in r.nodes && r.nodes[FilePath(root, files[i])] == files[i].content
  {
    forall i | 0 <= i < |files| && FilePath(root, files[i]) !in LaterPaths(root, files, i)
      ensures FilePath(root, files[i]) in r.nodes && r.nodes[FilePath(root, files[i])] == files[i].content
    {
      if i > 0 {
        assert files[1..][i - 1] == files[i];
        assert files[1..][i - 1 + 1..] == files[i + 1..];
      } else {
        assert files[i + 1..] == files[1..];
      }
    }
  }

  /** No file comes after the last one, so its root holds its content. */
  lemma ReadIntoLast(root: seq<string>, files: seq<ContentFile>, r: Contents)
    requires PlainFiles(root, files) && |files| > 0
    requires forall i :: 0 <= i < |files| && FilePath(root, files[i]) !in LaterPaths(root, files, i) ==>
               FilePath(root, files[i]) in r.nodes && r.nodes[FilePath(root, files[i])] == files[i].content
    ensures var last := files[|files| - 1];
            FilePath(root, last) in r.nodes && r.nodes[FilePath(root, last)] == last.content
  {
    var n := |files| - 1;
    assert files[n + 1..] == [];
  }

  /** The contents of a project: exactly the paths the content files
      reach, each file's root holding its content unless a later file
      reaches it. */
  function ReadContents(root: seq<string>, files: seq<ContentFile>): (r: Contents)
    requires PlainFiles(root, files)
    ensures r.nodes.Keys == FilesPaths(root, files)
    ensures forall i :: 0 <= i < |files| && FilePath(root, files[i]) !in LaterPaths(root, files, i) ==>
              FilePath(root, files[i]) in r.nodes && r.nodes[FilePath(root, files[i])] == files[i].content
  {
    ReadInto(Empty, root, files)
  }
}

=== FILE: htl_render.dfy ===
/** The decisions the HTL renderer takes around the template engine: which
    template file renders a resource, which globals a template sees, how
    `data-sly-resource` names become resources, and where `data-sly-use`
    scripts and models are looked up.

    The template engine itself is not modelled: rendering a file is the
    value `RenderCall(file, globals)` naming what would be executed. File
    existence, model scripts and binding functions are the parameters held
    in `Renderer`. */
module HtlRender {
  import opened Results
  import opened JsonValues
  import opened PathOps
  import opened ContentReader
  import opened Resolver
  import opened ResourceView
  import opened Bindings
  import opened ResourceNames

  /** A value held in the globals of a render. */
  datatype GVal =
    | Undefined
    | ResolverHandle                 // the resource resolver
    | WcmMode(disabled: bool)
    | ResourceRef(resource: Resource)
    | Properties(props: Option<Json>)  // a value map, possibly `undefined`
    | Data(v: Json)                  // any other value a binding provides

  type Globals = map<string, GVal>

  /** `globals[k]`: `undefined` for an absent key. */
  function Get(g: Globals, k: string): GVal {
    if k in g then g[k] else Undefined
  }

  /** What the renderer knows besides the contents: the `apps` directory,
      the configured bindings, which files exist and what model scripts
      yield. */
  datatype Renderer = Renderer(
    sourceDir: string,
    custom: Option<CustomBindings<GVal>>,
    isFile: string -> bool,
    loadModel: (string, Globals) -> GVal)

  /** Rendering of an HTL file with some globals. */
  datatype RenderCall = RenderCall(file: string, globals: Globals)

  const ResourceKey := "resource"
  const PropertiesKey := "properties"
  const WcmModeKey := "wcmmode"
  const PagePropertiesKey := "pageProperties"
  const ResolverKey := "resourceResolver"

  /** The names every template may use without declaring them. */
  const StructuralVars: seq<string> := [ResourceKey, PropertiesKey, WcmModeKey, PagePropertiesKey, ResolverKey]

  /** `{ ...a, ...b }`. */
  function Spread(a: Globals, b: Globals): (r: Globals)
    ensures r.Keys == a.Keys + b.Keys
    ensures forall k :: k in b ==> r[k] == b[k]
    ensures forall k :: k in a && k !in b ==> r[k] == a[k]
  {
    a + b
  }

  /** Whether a configured binding is called `k`. */
  predicate Declares(custom: Option<CustomBindings<GVal>>, k: string) {
    custom.Some? && k in NameSet(custom.value)
  }

  /** `r` is `base` with the bindings provided for a resource of type `ty`
      merged in: it has the keys of `base`, `model` when the type's model
      script exists, and every configured key; `model` holds the script's
      value on `base` unless a binding of that name replaces it; every
      configured key holds its binding's value on `base`; every other key
      keeps its value from `base`. */
  predicate BindingsMerged(rd: Renderer, ty: string, base: Globals, r: Globals) {
    var mp := ModelPath(rd.sourceDir, ty);
    && r.Keys == base.Keys + (if rd.isFile(mp) then {ModelKey} else {})
                           + (if rd.custom.Some? then NameSet(rd.custom.value) else {})
    && (rd.isFile(mp) && !Declares(rd.custom, ModelKey) ==> r[ModelKey] == rd.loadModel(mp, base))
    && (rd.custom.Some? ==> forall i :: 0 <= i < |rd.custom.value| ==>
          r[rd.custom.value[i].name] == Evaluate(rd.custom.value[i].binding, base))
    && (forall k :: k in base && !Declares(rd.custom, k) && !(k == ModelKey && rd.isFile(mp)) ==> r[k] == base[k])
  }

  /** Spreading the provided bindings over `base` merges them. */
  lemma SpreadMergesBindings(rd: Renderer, ty: string, base: Globals)
    ensures BindingsMerged(rd, ty, base, Spread(base, Provide(rd.sourceDir, ty, rd.custom, base, rd.isFile, rd.loadModel)))
  {
    var mp := ModelPath(rd.sourceDir, ty);
    var p := Provide(rd.sourceDir, ty, rd.custom, base, rd.isFile, rd.loadModel);
    var r := Spread(base, p);
    if rd.isFile(mp) && !Declares(rd.custom, ModelKey) {
      assert rd.custom.Some? ==> forall i :: 0 <= i < |rd.custom.value| ==> rd.custom.value[i].name != ModelKey by {
        if rd.custom.Some? {
          forall i | 0 <= i < |rd.custom.value| ensures rd.custom.value[i].name != ModelKey {
            assert rd.custom.value[i].name in NameSet(rd.custom.value);
          }
        }
      }
      assert ModelKey in p;
    }
    forall k | k in base && !Declares(rd.custom, k) && !(k == ModelKey && rd.isFile(mp))
      ensures r[k] == base[k]
    {
      assert k !in p;
    }
  }

  // ------------------------------------------------------- runtime vars

  /** The runtime variables a template is compiled with: the structural
      names, then the binding names. */
  function RuntimeVars(custom: Option<CustomBindings<GVal>>): (vs: seq<string>)
    ensures |vs| == |StructuralVars| + |Names(custom)|
    ensures vs[..|StructuralVars|] == StructuralVars && vs[|StructuralVars|..] == Names(custom)
    ensures ModelKey in vs
  {
    StructuralVars + Names(custom)
  }

  // ------------------------------------------------------- template file

  /** The HTL file that renders a resource of type `ty`: the file named
      after the selectors in the component directory, or, without
      selectors, the file named after the component directory itself. */
  function TemplateFile(sourceDir: string, ty: string, selectors: Option<string>): (f: string)
    ensures selectors.Some? && selectors.value != "" ==>
              f == Resolve(sourceDir, ty) + "/" + selectors.value + ".html"
    ensures Named(ty) && (selectors.None? || selectors.value == "") ==>
              f == Resolve(sourceDir, ty) + "/" + Basename(ty) + ".html"
  {
    ResolveKeepsName(sourceDir, ty);
    var componentPath := Resolve(sourceDir, ty);
    var componentName := Basename(componentPath);
    if selectors.None? || selectors.value == "" then componentPath + "/" + componentName + ".html"
    else componentPath + "/" + selectors.value + ".html"
  }

  // ----------------------------------------------------- script resolver

  /** The first candidate that exists, if any. */
  function FirstExisting(cands: seq<string>, isFile: string -> bool): (r: Option<string>)
    ensures r.Some? <==> exists i :: 0 <= i < |cands| && isFile(cands[i])
    ensures r.Some? ==> exists i :: && 0 <= i < |cands| && cands[i] == r.value && isFile(r.value)
                                    && (forall j :: 0 <= j < i ==> !isFile(cands[j]))
  {
    if |cands| == 0 then None
    else if isFile(cands[0]) then Some(cands[0])
    else
      var r := FirstExisting(cands[1..], isFile);
      assert forall i :: 0 <= i < |cands| - 1 ==> cands[1..][i] == cands[i + 1];
      r
  }

  /** The places a `data-sly-use` template is looked for, in order. */
  function ScriptCandidates(sourceDir: string, ty: string, baseDir: string, uri: string): seq<string> {
    [Resolve(Resolve(Resolve(sourceDir, ty), baseDir), uri), Resolve(Resolve(sourceDir, baseDir), uri)]
  }

  /** The script resolver for components of type `ty`: the first existing
      candidate, else `<sourceDir>/<uri>` whether or not it exists. */
  function ResolveScript(sourceDir: string, ty: string, isFile: string -> bool, baseDir: string, uri: string): (r: string)
    ensures var cs := ScriptCandidates(sourceDir, ty, baseDir, uri);
            && (isFile(cs[0]) ==> r == cs[0])
            && (!isFile(cs[0]) && isFile(cs[1]) ==> r == cs[1])
            && (!isFile(cs[0]) && !isFile(cs[1]) ==> r == Resolve(sourceDir, uri))
    ensures isFile(r) || r == Resolve(sourceDir, uri)
  {
    match FirstExisting(ScriptCandidates(sourceDir, ty, baseDir, uri), isFile)
    case Some(p) => p
    case None => Resolve(sourceDir, uri)
  }

  // ------------------------------------------------------- module import

  /** The generated `const <varName> = require(<provider>)(<module>)`. */
  datatype Import = Import(varName: string, provider: string, moduleFile: string)

  /** The built-in model `models/<moduleId>` next to the renderer in `libDir`. */
  function BuiltinModel(libDir: string, moduleId: string): string {
    Resolve(Resolve(libDir, "models"), moduleId)
  }

  /** The module import generator: `moduleId` as given when it exists,
      else the built-in model of that name when that exists, else nothing. */
  function ModuleImport(libDir: string, isFile: string -> bool, varName: string, moduleId: string): (r: Option<Import>)
    ensures r.Some? <==> isFile(moduleId) || isFile(BuiltinModel(libDir, moduleId))
    ensures r.Some? ==> && r.value.varName == varName
                        && isFile(r.value.moduleFile)
                        && r.value.moduleFile == (if isFile(moduleId) then moduleId else BuiltinModel(libDir, moduleId))
                        && r.value.provider == Resolve(libDir, "JsUseProvider")
  {
    var mPath := BuiltinModel(libDir, moduleId);
    var m := if !isFile(moduleId) && isFile(mPath) then mPath else moduleId;
    if isFile(m) then Some(Import(varName, Resolve(libDir, "JsUseProvider"), m)) else None
  }

  // ------------------------------------------------------ include handler

  /** The include handler: the file resolved against the working directory,
      rendered with the very globals of the including template. */
  function Include(cwd: string, file: string, g: Globals): (c: RenderCall)
    ensures c.globals == g
    ensures |file| > 0 && file[0] == '/' ==> c.file == file
    ensures |file| > 0 && file[0] != '/' ==> c.file == cwd + "/" + file
  {
    RenderCall(Resolve(cwd, file), g)
  }

  // ------------------------------------------------------- resource loader

  /** The resolver held in the globals, or the fault of calling a resolver
      method on what is held there. */
  function ResolverIn(g: Globals): (r: Result<()>)
    ensures r.Ok? <==> Get(g, ResolverKey) == ResolverHandle
  {
    match Get(g, ResolverKey)
    case ResolverHandle => Ok(())
    case Undefined => Fail(ReadOfUndefined)
    case _ => Fail(NotAResolver)
  }

  /** The resource held in the globals, or the fault of reading a resource
      property of what is held there. */
  function ResourceIn(g: Globals): (r: Result<Resource>)
    ensures r.Ok? <==> Get(g, ResourceKey).ResourceRef?
    ensures r.Ok? ==> Get(g, ResourceKey) == ResourceRef(r.value)
  {
    match Get(g, ResourceKey)
    case ResourceRef(p) => Ok(p)
    case Undefined => Fail(ReadOfUndefined)
    case _ => Fail(NotAResource)
  }

  /** Where an absolute name is looked up: its directory, then the name
      without selectors. */
  function AbsoluteTarget(oName: string, rn: ResourceName): (q: string)
    ensures Segment(rn.base) ==> Basename(q) == rn.base
    ensures Segment(rn.base) && Named(Dirname(oName)) ==> Dirname(q) == Dirname(oName)
  {
    ChildPath(Dirname(oName), rn.base);
    Dirname(oName) + "/" + rn.base
  }

  /** The lookup of the resource loader as written: an absolute name goes
      through `getResource`, a relative one through the parent's
      `getChild`, which throws for an absent child. */
  function LocateAsWritten(t: Contents, g: Globals, oName: string): (r: Result<Option<Resource>>)
    ensures var rn := ParseName(oName);
            rn.absolute ==> && (ResolverIn(g).Fail? ==> r == Fail(ResolverIn(g).fault))
                            && (ResolverIn(g).Ok? ==> r == GetResource(t, AbsoluteTarget(oName, rn)))
    ensures var rn := ParseName(oName);
            !rn.absolute && r.Ok? ==> r.value.Some?
    ensures var rn := ParseName(oName);
            !rn.absolute && ResourceIn(g).Ok? ==>
              var c := Child(t, ResourceIn(g).value, rn.base);
              (r.Ok? <==> c.Ok?) && (r.Ok? ==> r.value == Some(c.value))
  {
    var rn := ParseName(oName);
    if rn.absolute then
      var _ :- ResolverIn(g);
      GetResource(t, AbsoluteTarget(oName, rn))
    else
      var parent :- ResourceIn(g);
      var child :- Child(t, parent, rn.base);
      Ok(Some(child))
  }

  /** The lookup as the fallback after it expects: a relative name yields
      no resource, rather than a fault, when the child is absent. */
  function Locate(t: Contents, g: Globals, oName: string): (r: Result<Option<Resource>>)
    ensures var rn := ParseName(oName);
            rn.absolute ==> && (ResolverIn(g).Fail? ==> r == Fail(ResolverIn(g).fault))
                            && (ResolverIn(g).Ok? ==> r == GetResource(t, AbsoluteTarget(oName, rn)))
    ensures var rn := ParseName(oName);
            !rn.absolute && r.Ok? ==> ResourceIn(g).Ok?
    ensures var rn := ParseName(oName);
            !rn.absolute && ResourceIn(g).Ok? ==> r == GetResource(t, ResourceIn(g).value.path + "/" + rn.base)
  {
    var rn := ParseName(oName);
    if rn.absolute then
      var _ :- ResolverIn(g);
      GetResource(t, AbsoluteTarget(oName, rn))
    else
      var parent :- ResourceIn(g);
      GetResource(t, parent.path + "/" + rn.base)
  }

  /** `options.resourceType` is set (truthy). */
  predicate Overrides(override: Option<string>) {
    override.Some? && override.value != ""
  }

  /** The resource the loader renders: the one found, else a synthetic
      resource of the override type below the parent, named with the full
      name (selectors included), else the fault of reading `valueMap` of
      `null`. */
  function Target(g: Globals, oName: string, override: Option<string>, found: Option<Resource>): (r: Result<Resource>)
    ensures found.Some? ==> r == Ok(found.value)
    ensures found.None? && !Overrides(override) ==> r == Fail(ReadOfNull)
    ensures found.None? && Overrides(override) && ResolverIn(g).Fail? ==> r == Fail(ResolverIn(g).fault)
    ensures found.None? && Overrides(override) && ResolverIn(g).Ok? && ResourceIn(g).Ok? ==>
              r == Ok(Synthetic(ResourceIn(g).value.path + "/" + ParseName(oName).name, override.value, JObj([])))
    ensures found.None? && r.Ok? ==> && Overrides(override)
                                     && ResourceIn(g).Ok?
                                     && r.value == Synthetic(ResourceIn(g).value.path + "/" + ParseName(oName).name,
                                                             override.value, JObj([]))
  {
    if found.Some? then Ok(found.value)
    else if Overrides(override) then
      var _ :- ResolverIn(g);
      var parent :- ResourceIn(g);
      Ok(Synthetic(parent.path + "/" + ParseName(oName).name, override.value, JObj([])))
    else Fail(ReadOfNull)
  }

  /** The globals of a resource rendered from a template with globals `g`:
      resolver, page properties and WCM mode carried over, the resource and
      its value map, then the bindings provided for the resource. */
  function ChildGlobals(rd: Renderer, t: Contents, g: Globals, res: Resource): (r: Globals)
    ensures ResourceKey in r && PropertiesKey in r && WcmModeKey in r && ResolverKey in r && PagePropertiesKey in r
    ensures !Declares(rd.custom, ResolverKey) ==> r[ResolverKey] == Get(g, ResolverKey)
    ensures !Declares(rd.custom, PagePropertiesKey) ==> r[PagePropertiesKey] == Get(g, PagePropertiesKey)
    ensures !Declares(rd.custom, WcmModeKey) ==> r[WcmModeKey] == Get(g, WcmModeKey)
    ensures !Declares(rd.custom, ResourceKey) ==> r[ResourceKey] == ResourceRef(res)
    ensures !Declares(rd.custom, PropertiesKey) ==> r[PropertiesKey] == Properties(ValueMap(t, res))
    ensures BindingsMerged(rd, res.resourceType, BaseChildGlobals(t, g, res), r)
  {
    var base := BaseChildGlobals(t, g, res);
    SpreadMergesBindings(rd, res.resourceType, base);
    Spread(base, Provide(rd.sourceDir, res.resourceType, rd.custom, base, rd.isFile, rd.loadModel))
  }

  /** The child globals before the bindings are merged in. */
  function BaseChildGlobals(t: Contents, g: Globals, res: Resource): (r: Globals)
    ensures r.Keys == {ResolverKey, PagePropertiesKey, WcmModeKey, ResourceKey, PropertiesKey}
    ensures forall k :: k in {ResolverKey, PagePropertiesKey, WcmModeKey} ==> r[k] == Get(g, k)
    ensures r[ResourceKey] == ResourceRef(res) && r[PropertiesKey] == Properties(ValueMap(t, res))
  {
    map[
      ResolverKey := Get(g, ResolverKey),
      PagePropertiesKey := Get(g, PagePropertiesKey),
      WcmModeKey := Get(g, WcmModeKey),
      ResourceKey := ResourceRef(res),
      PropertiesKey := Properties(ValueMap(t, res))]
  }

  /** The resource loader, from a lookup result on: the target resource,
      its globals and its template file. */
  function LoadFound(rd: Renderer, t: Contents, g: Globals, oName: string, override: Option<string>,
                     found: Result<Option<Resource>>): (r: Result<RenderCall>)
    ensures found.Fail? ==> r == Fail(found.fault)
    ensures r.Ok? ==>
              && found.Ok? && Target(g, oName, override, found.value).Ok?
              && var res := Target(g, oName, override, found.value).value;
                 r.value == RenderCall(TemplateFile(rd.sourceDir, res.resourceType, ParseName(oName).selectors),
                                       ChildGlobals(rd, t, g, res))
    ensures found.Ok? && found.value.Some? ==>
              r == Ok(RenderCall(TemplateFile(rd.sourceDir, found.value.value.resourceType, ParseName(oName).selectors),
                                 ChildGlobals(rd, t, g, found.value.value)))
    ensures found.Ok? && Target(g, oName, override, found.value).Fail? ==>
              r == Fail(Target(g, oName, override, found.value).fault)
  {
    var f :- found;
    var res :- Target(g, oName, override, f);
    Ok(RenderCall(TemplateFile(rd.sourceDir, res.resourceType, ParseName(oName).selectors), ChildGlobals(rd, t, g, res)))
  }

  /** The resource loader for `data-sly-resource="<oName>"`, as written. */
  function LoadResourceAsWritten(rd: Renderer, t: Contents, g: Globals, oName: string, override: Option<string>): (r: Result<RenderCall>)
    ensures r.Ok? && !Declares(rd.custom, ResolverKey) ==> Get(r.value.globals, ResolverKey) == Get(g, ResolverKey)
    ensures var l := LocateAsWritten(t, g, oName);
            l.Fail? ==> r == Fail(l.fault)
    ensures var l := LocateAsWritten(t, g, oName);
            l.Ok? && l.value.Some? ==>
              r == Ok(RenderCall(TemplateFile(rd.sourceDir, l.value.value.resourceType, ParseName(oName).selectors),
                                 ChildGlobals(rd, t, g, l.value.value)))
    ensures var l := LocateAsWritten(t, g, oName);
            l == Ok(None) && !Overrides(override) ==> r == Fail(ReadOfNull)
    ensures var l := LocateAsWritten(t, g, oName);
            l == Ok(None) && Overrides(override) && ResolverIn(g).Ok? && ResourceIn(g).Ok? ==>
              var s := Synthetic(ResourceIn(g).value.path + "/" + ParseName(oName).name, override.value, JObj([]));
              && r.Ok?
              && r.value.file == TemplateFile(rd.sourceDir, override.value, ParseName(oName).selectors)
              && (!Declares(rd.custom, ResourceKey) ==> Get(r.value.globals, ResourceKey) == ResourceRef(s))
              && (!Declares(rd.custom, PropertiesKey) ==> Get(r.value.globals, PropertiesKey) == Properties(Some(JObj([]))))
  {
    LoadFound(rd, t, g, oName, override, LocateAsWritten(t, g, oName))
  }

  /** The resource loader with the lookup the synthetic fallback expects. */
  function LoadResource(rd: Renderer, t: Contents, g: Globals, oName: string, override: Option<string>): (r: Result<RenderCall>)
    ensures r.Ok? && !Declares(rd.custom, ResolverKey) ==> Get(r.value.globals, ResolverKey) == Get(g, ResolverKey)
    ensures var l := Locate(t, g, oName);
            && (l.Fail? ==> r == Fail(l.fault))
            && (l.Ok? && l.value.Some? ==>
                  r == Ok(RenderCall(TemplateFile(rd.sourceDir, l.value.value.resourceType, ParseName(oName).selectors),
                                     ChildGlobals(rd, t, g, l.value.value))))
    ensures var l := Locate(t, g, oName);
            l == Ok(None) && !Overrides(override) ==> r == Fail(ReadOfNull)
    ensures var l := Locate(t, g, oName);
            l == Ok(None) && Overrides(override) && ResolverIn(g).Ok? && ResourceIn(g).Ok? ==>
              var s := Synthetic(ResourceIn(g).value.path + "/" + ParseName(oName).name, override.value, JObj([]));
              && r.Ok?
              && r.value.file == TemplateFile(rd.sourceDir, override.value, ParseName(oName).selectors)
              && (!Declares(rd.custom, ResourceKey) ==> Get(r.value.globals, ResourceKey) == ResourceRef(s))
              && (!Declares(rd.custom, PropertiesKey) ==> Get(r.value.globals, PropertiesKey) == Properties(Some(JObj([]))))
  {
    LoadFound(rd, t, g, oName, override, Locate(t, g, oName))
  }

  // -------------------------------------------------- components and pages

  /** The globals a component is rendered with at top level: the
      resource, its value map, WCM mode disabled and `resolver` under
      `resourceResolver`, spread with the provided bindings, which win. */
  function ComponentGlobals(rd: Renderer, t: Contents, res: Resource, resolver: GVal): (r: Globals)
    ensures ResourceKey in r && PropertiesKey in r && WcmModeKey in r && ResolverKey in r
    ensures !Declares(rd.custom, ResolverKey) ==> r[ResolverKey] == resolver
    ensures !Declares(rd.custom, ResourceKey) ==> r[ResourceKey] == ResourceRef(res)
    ensures !Declares(rd.custom, WcmModeKey) ==> r[WcmModeKey] == WcmMode(true)
    ensures !Declares(rd.custom, PropertiesKey) ==> r[PropertiesKey] == Properties(ValueMap(t, res))
    ensures BindingsMerged(rd, res.resourceType, ComponentBase(t, res, resolver), r)
  {
    var base := ComponentBase(t, res, resolver);
    SpreadMergesBindings(rd, res.resourceType, base);
    Spread(base, Provide(rd.sourceDir, res.resourceType, rd.custom, base, rd.isFile, rd.loadModel))
  }

  /** The component's globals before the bindings are merged in. */
  function ComponentBase(t: Contents, res: Resource, resolver: GVal): (r: Globals)
    ensures r.Keys == {WcmModeKey, ResourceKey, ResolverKey, PropertiesKey}
    ensures && r[WcmModeKey] == WcmMode(true) && r[ResourceKey] == ResourceRef(res)
            && r[ResolverKey] == resolver && r[PropertiesKey] == Properties(ValueMap(t, res))
  {
    map[
      WcmModeKey := WcmMode(true),
      ResourceKey := ResourceRef(res),
      ResolverKey := resolver,
      PropertiesKey := Properties(ValueMap(t, res))]
  }

  /** `rendComponent(resource, selectors)` as written: `resourceResolver`
      is read from the resource, which has no such property, so it is
      `undefined`. */
  function RendComponentAsWritten(rd: Renderer, t: Contents, res: Resource, selectors: Option<string>): (r: Option<RenderCall>)
    ensures r.Some? && !Declares(rd.custom, ResolverKey) ==> Get(r.value.globals, ResolverKey) == Undefined
    ensures r.Some? <==> rd.isFile(TemplateFile(rd.sourceDir, res.resourceType, selectors))
    ensures r.Some? ==> r.value.file == TemplateFile(rd.sourceDir, res.resourceType, selectors)
    ensures r.Some? && !Declares(rd.custom, ResourceKey) ==> Get(r.value.globals, ResourceKey) == ResourceRef(res)
    ensures r.Some? && !Declares(rd.custom, WcmModeKey) ==> Get(r.value.globals, WcmModeKey) == WcmMode(true)
    ensures r.Some? && !Declares(rd.custom, PropertiesKey) ==>
              Get(r.value.globals, PropertiesKey) == Properties(ValueMap(t, res))
    ensures r.Some? ==> BindingsMerged(rd, res.resourceType, ComponentBase(t, res, Undefined), r.value.globals)
  {
    var file := TemplateFile(rd.sourceDir, res.resourceType, selectors);
    if !rd.isFile(file) then None
    else Some(RenderCall(file, ComponentGlobals(rd, t, res, Undefined)))
  }

  /** `rendComponent(resource, selectors)` with the resolver under
      `resourceResolver`: nothing when the template file is missing, else
      that file with the resource, its value map, WCM mode disabled and the
      provided bindings. */
  function RendComponent(rd: Renderer, t: Contents, res: Resource, selectors: Option<string>): (r: Option<RenderCall>)
    ensures r.Some? <==> rd.isFile(TemplateFile(rd.sourceDir, res.resourceType, selectors))
    ensures r.Some? ==> r.value.file == TemplateFile(rd.sourceDir, res.resourceType, selectors)
    ensures r.Some? && !Declares(rd.custom, ResolverKey) ==> Get(r.value.globals, ResolverKey) == ResolverHandle
    ensures r.Some? && !Declares(rd.custom, ResourceKey) ==> Get(r.value.globals, ResourceKey) == ResourceRef(res)
    ensures r.Some? && !Declares(rd.custom, WcmModeKey) ==> Get(r.value.globals, WcmModeKey) == WcmMode(true)
    ensures r.Some? && !Declares(rd.custom, PropertiesKey) ==>
              Get(r.value.globals, PropertiesKey) == Properties(ValueMap(t, res))
    ensures r.Some? ==> BindingsMerged(rd, res.resourceType, ComponentBase(t, res, ResolverHandle), r.value.globals)
  {
    var file := TemplateFile(rd.sourceDir, res.resourceType, selectors);
    if !rd.isFile(file) then None
    else Some(RenderCall(file, ComponentGlobals(rd, t, res, ResolverHandle)))
  }

  /** The name the page template renders. */
  const PageContent := "jcr:content"

  /** `jcr:content` is a relative name without selectors. */
  lemma PageContentName()
    ensures ParseName(PageContent) == ResourceName(false, PageContent, PageContent, None)
  {
    assert PageContent[0] != '/';
    assert '.' !in PageContent by {
      forall i | 0 <= i < |PageContent| ensures PageContent[i] != '.' { }
    }
  }

  /** The globals of a page: exactly the page, its value map, WCM mode
      disabled, `resolver` under `resourceResolver` and the value map of
      its `jcr:content` child, which must exist, as page properties. No
      binding is provided at page level. */
  function PageGlobals(t: Contents, page: Resource, resolver: GVal): (r: Result<Globals>)
    ensures r.Ok? <==> Child(t, page, PageContent).Ok?
    ensures r.Fail? ==> r == Fail(Child(t, page, PageContent).fault)
    ensures r.Ok? ==> r.value.Keys == {PagePropertiesKey, WcmModeKey, ResourceKey, ResolverKey, PropertiesKey}
    ensures r.Ok? ==> && r.value[ResourceKey] == ResourceRef(page)
                      && r.value[ResolverKey] == resolver
                      && r.value[WcmModeKey] == WcmMode(true)
                      && r.value[PropertiesKey] == Properties(ValueMap(t, page))
                      && r.value[PagePropertiesKey] == Properties(Some(t.nodes[page.path + "/" + PageContent]))
  {
    var content :- Child(t, page, PageContent);
    Ok(map[
      PagePropertiesKey := Properties(ValueMap(t, content)),
      WcmModeKey := WcmMode(true),
      ResourceKey := ResourceRef(page),
      ResolverKey := resolver,
      PropertiesKey := Properties(ValueMap(t, page))])
  }

  /** `rendPage(page)` as written, up to its one resource load: the page
      template renders `jcr:content` with the page's globals, in which
      `resourceResolver` is `undefined`. */
  function RendPageAsWritten(rd: Renderer, t: Contents, page: Resource): (r: Result<RenderCall>)
    ensures r.Ok? && !Declares(rd.custom, ResolverKey) ==> Get(r.value.globals, ResolverKey) == Undefined
    ensures r.Ok? <==> Child(t, page, PageContent).Ok?
    ensures r.Ok? ==> && Child(t, page, PageContent).Ok?
                      && r.value.file == TemplateFile(rd.sourceDir, Child(t, page, PageContent).value.resourceType, None)
    ensures r.Ok? && !Declares(rd.custom, ResourceKey) ==>
              && Child(t, page, PageContent).Ok?
              && Get(r.value.globals, ResourceKey) == ResourceRef(Child(t, page, PageContent).value)
    ensures r.Ok? && !Declares(rd.custom, PagePropertiesKey) ==>
              Get(r.value.globals, PagePropertiesKey) == Properties(Some(t.nodes[page.path + "/" + PageContent]))
  {
    var g :- PageGlobals(t, page, Undefined);
    PageContentName();
    LoadResourceAsWritten(rd, t, g, PageContent, None)
  }

  /** `rendPage(page)` with the resolver in the page's globals. */
  function RendPage(rd: Renderer, t: Contents, page: Resource): (r: Result<RenderCall>)
    ensures r.Ok? && !Declares(rd.custom, ResolverKey) ==> Get(r.value.globals, ResolverKey) == ResolverHandle
    ensures r.Ok? <==> Child(t, page, PageContent).Ok?
    ensures r.Ok? ==> && Child(t, page, PageContent).Ok?
                      && r.value.file == TemplateFile(rd.sourceDir, Child(t, page, PageContent).value.resourceType, None)
    ensures r.Ok? && !Declares(rd.custom, ResourceKey) ==>
              && Child(t, page, PageContent).Ok?
              && Get(r.value.globals, ResourceKey) == ResourceRef(Child(t, page, PageContent).value)
    ensures r.Ok? && !Declares(rd.custom, PagePropertiesKey) ==>
              Get(r.value.globals, PagePropertiesKey) == Properties(Some(t.nodes[page.path + "/" + PageContent]))
  {
    var g :- PageGlobals(t, page, ResolverHandle);
    PageContentName();
    LoadResource(rd, t, g, PageContent, None)
  }
}

=== FILE: json.dfy ===
/** Parsed JSON content, as `JSON.parse` hands it to the content reader.

    Only the parts of JavaScript's value semantics the plugin relies on are
    modelled: `typeof v == 'object'` (true for objects, arrays and `null`),
    truthiness, property reads, and the keys a `for ... in` loop enumerates. */
module JsonValues {
  import opened Results

  /** An object's fields are listed in the order `for ... in` enumerates them. */
  datatype Json =
    | JNull
    | JBool(b: bool)
    | JNum(n: real)
    | JStr(s: string)
    | JArr(items: seq<Json>)
    | JObj(fields: seq<Field>)

  datatype Field = Field(name: string, value: Json)

  /** `typeof v == 'object'`: objects, arrays and `null`. */
  predicate IsObjectTyped(v: Json)
    ensures IsObjectTyped(v) <==> !(v.JBool? || v.JNum? || v.JStr?)
  {
    v.JNull? || v.JArr? || v.JObj?
  }

  /** JavaScript truthiness of a possibly `undefined` value. */
  predicate Truthy(v: Option<Json>) {
    match v
    case None => false
    case Some(JNull) => false
    case Some(JBool(b)) => b
    case Some(JNum(n)) => n != 0.0
    case Some(JStr(s)) => s != ""
    case Some(JArr(_)) => true
    case Some(JObj(_)) => true
  }

  /** Exactly `undefined`, `null`, `false`, `0` and `""` are falsy. */
  lemma FalsyValues(v: Option<Json>)
    ensures Truthy(v) <==>
              v.Some? && v.value != JNull && v.value != JBool(false) && v.value != JNum(0.0) && v.value != JStr("")
  {
  }

  /** The value of the first field called `key` in a field list. */
  function Lookup(fs: seq<Field>, key: string): (r: Option<Json>)
    ensures r.Some? <==> exists i :: 0 <= i < |fs| && fs[i].name == key
    ensures r.Some? ==> exists i :: 0 <= i < |fs| && fs[i].name == key && fs[i].value == r.value
  {
    if |fs| == 0 then None
    else if fs[0].name == key then Some(fs[0].value)
    else
      var r := Lookup(fs[1..], key);
      assert forall i :: 0 <= i < |fs| - 1 ==> fs[1..][i] == fs[i + 1];
      r
  }

  /** `v[key]` for a named property: only objects have named properties;
      arrays, strings, numbers and booleans read as `undefined`. Reading a
      property of `null` throws, so callers exclude it. */
  function Prop(v: Json, key: string): (r: Option<Json>)
    requires !v.JNull?
    ensures r.Some? <==> v.JObj? && exists i :: 0 <= i < |v.fields| && v.fields[i].name == key
    ensures r.Some? ==> exists i :: 0 <= i < |v.fields| && v.fields[i].name == key && v.fields[i].value == r.value
  {
    if v.JObj? then Lookup(v.fields, key) else None
  }

  /** The decimal spelling of a non-negative integer, as used for array indices. */
  function NatToString(n: nat): (s: string)
    ensures |s| >= 1
    ensures forall i :: 0 <= i < |s| ==> '0' <= s[i] <= '9'
  {
    if n < 10 then [Digit(n)] else NatToString(n / 10) + [Digit(n % 10)]
  }

  function Digit(d: nat): (c: char)
    requires d < 10
    ensures '0' <= c <= '9'
  {
    "0123456789"[d]
  }

  lemma DigitInjective(a: nat, b: nat)
    requires a < 10 && b < 10 && Digit(a) == Digit(b)
    ensures a == b
  {
  }

  /** Different array indices get different property names. */
  lemma {:induction false} NatToStringInjective(a: nat, b: nat)
    requires NatToString(a) == NatToString(b)
    ensures a == b
    decreases a
  {
    var sa, sb := NatToString(a), NatToString(b);
    if a < 10 && b < 10 {
      DigitInjective(a, b);
    } else if a < 10 || b < 10 {
      // one spelling has a single digit and the other at least two
      assert false;
    } else {
      assert sa[|sa| - 1] == Digit(a % 10);
      assert sb[|sb| - 1] == Digit(b % 10);
      DigitInjective(a % 10, b % 10);
      assert sa[..|sa| - 1] == NatToString(a / 10);
      assert sb[..|sb| - 1] == NatToString(b / 10);
      NatToStringInjective(a / 10, b / 10);
    }
  }

  /** The (key, value) pairs `for (const child in v)` visits, in order, with
      `v[child]` as the value. An object yields its fields and an array its
      indices. A string also enumerates its indices, but every value it
      yields is a one-character string, never object-typed; since the
      content reader only acts on object-typed values, strings (like numbers,
      booleans and `null`) are given no entries here. */
  function Entries(v: Json): (es: seq<Field>)
    ensures forall i :: 0 <= i < |es| ==> es[i].value < v
  {
    match v
    case JObj(fs) => fs
    case JArr(items) => seq(|items|, i requires 0 <= i < |items| => Field(NatToString(i), items[i]))
    case _ => []
  }

  /** The names an array's entries carry are pairwise distinct. */
  lemma ArrayEntryNamesDistinct(items: seq<Json>)
    ensures var es := Entries(JArr(items));
            forall i, j :: 0 <= i < j < |es| ==> es[i].name != es[j].name
  {
    var es := Entries(JArr(items));
    forall i, j | 0 <= i < j < |es|
      ensures es[i].name != es[j].name
    {
      if es[i].name == es[j].name {
        NatToStringInjective(i, j);
      }
    }
  }
}

=== FILE: paths.dfy ===
/** The slash-separated path operations the plugin borrows from Node's `path`
    module (POSIX flavour): `dirname`, `basename`, `join` of clean segments and
    `resolve`.

    `Dirname` and `Basename` follow Node's algorithms character by character,
    including their treatment of trailing and doubled slashes. `Resolve`
    keeps only the part of `path.resolve` the plugin depends on: an absolute
    right-hand side replaces the base, an empty one is skipped. */
module PathOps {

  /** A path that ends in a named segment: non-empty and not ending in '/'. */
  predicate Named(p: string) {
    |p| > 0 && p[|p| - 1] != '/'
  }

  /** A single path segment: non-empty and free of '/'. */
  predicate Segment(n: string) {
    |n| > 0 && '/' !in n
  }

  /** `p` equals `q` or lies somewhere below it. */
  predicate Under(p: string, q: string) {
    p == q || (|q| < |p| && p[..|q|] == q && p[|q|] == '/')
  }

  // ---------------------------------------------------------------- dirname

  /** Node's backwards scan for the slash that ends the directory part:
      trailing slashes are skipped while `matched` holds, then the last
      segment, and the index of the slash before it is returned (-1 when
      the scan reaches index 0 first). */
  function DirEnd(p: string, i: int, matched: bool): (e: int)
    requires i < |p|
    ensures e == -1 || (0 < e <= i && p[e] == '/')
    decreases i
  {
    if i < 1 then -1
    else if p[i] == '/' then (if !matched then i else DirEnd(p, i - 1, matched))
    else DirEnd(p, i - 1, false)
  }

  /** `path.dirname(p)`. */
  function Dirname(p: string): (d: string)
    ensures |p| > 0 && p[0] == '/' ==> |d| > 0 && d[0] == '/'
    ensures d == "." || d == "/" || d == "//" || (|d| < |p| && p[..|d|] == d && p[|d|] == '/')
  {
    if |p| == 0 then "."
    else
      var hasRoot := p[0] == '/';
      var e := DirEnd(p, |p| - 1, true);
      if e == -1 then (if hasRoot then "/" else ".")
      else if hasRoot && e == 1 then "//"
      else p[..e]
  }

  // --------------------------------------------------------------- basename

  /** One past the last character of `p[..i]` that is not '/', or 0. */
  function NameEnd(p: string, i: nat): (e: nat)
    requires i <= |p|
    ensures e <= i
    ensures e > 0 ==> p[e - 1] != '/'
  {
    if i == 0 then 0
    else if p[i - 1] != '/' then i
    else NameEnd(p, i - 1)
  }

  /** One past the last '/' of `p[..i]`, or 0. */
  function NameStart(p: string, i: nat): (s: nat)
    requires i <= |p|
    ensures s <= i
    ensures s > 0 ==> p[s - 1] == '/'
  {
    if i == 0 then 0
    else if p[i - 1] == '/' then i
    else NameStart(p, i - 1)
  }

  /** `path.basename(p)`: the last segment, trailing slashes ignored. */
  function Basename(p: string): (b: string)
    ensures '/' !in b
  {
    var e := NameEnd(p, |p|);
    if e == 0 then ""
    else
      NameStartSlashFree(p, e - 1);
      p[NameStart(p, e - 1)..e]
  }

  /** For a path not ending in '/', `basename` is a non-empty suffix of
      it that starts the path or follows a '/'. */
  lemma BasenameIsLastSegment(p: string)
    ensures var b := Basename(p);
            Named(p) ==>
            && 0 < |b| <= |p|
            && p[|p| - |b|..] == b
            && (|b| == |p| || p[|p| - |b| - 1] == '/')
  {
    if Named(p) {
      assert NameEnd(p, |p|) == |p|;
    }
  }

  /** Nothing between the last slash before `i` and `i` is a slash. */
  lemma {:induction false} NameStartSlashFree(p: string, i: nat)
    requires i <= |p|
    ensures forall j :: NameStart(p, i) <= j < i ==> p[j] != '/'
    decreases i
  {
    if i > 0 && p[i - 1] != '/' {
      NameStartSlashFree(p, i - 1);
    }
  }

  lemma {:induction false} NameStartShift(a: string, q: string, i: nat)
    requires |a| > 0 && a[|a| - 1] == '/' && i <= |q|
    ensures NameStart(a + q, |a| + i) == |a| + NameStart(q, i)
    decreases i
  {
    var s := a + q;
    if i == 0 {
      assert s[|a| - 1] == '/';
    } else {
      assert s[|a| + i - 1] == q[i - 1];
      if q[i - 1] != '/' {
        NameStartShift(a, q, i - 1);
      }
    }
  }

  /** Below a directory ending in '/', a named path keeps its last segment. */
  lemma BasenameUnder(a: string, q: string)
    requires |a| > 0 && a[|a| - 1] == '/' && Named(q)
    ensures Basename(a + q) == Basename(q)
  {
    var s := a + q;
    assert s[|s| - 1] == q[|q| - 1];
    assert NameEnd(s, |s|) == |s|;
    assert NameEnd(q, |q|) == |q|;
    NameStartShift(a, q, |q| - 1);
    var j := NameStart(q, |q| - 1);
    assert Basename(q) == q[j..|q|];
    assert Basename(s) == s[|a| + j..|s|];
    forall m | 0 <= m < |q| - j ensures s[|a| + j..|s|][m] == q[j..|q|][m] {
      assert s[|a| + j + m] == q[j + m];
    }
  }

  // ------------------------------------------------------------ join/resolve

  /** Clean segments joined with '/'. */
  function JoinSegments(segs: seq<string>): string {
    if |segs| == 0 then ""
    else if |segs| == 1 then segs[0]
    else segs[0] + "/" + JoinSegments(segs[1..])
  }

  /** `path.resolve(base, rel)` without normalisation: an absolute `rel`
      wins, an empty `rel` is skipped, otherwise `rel` goes below `base`. */
  function Resolve(base: string, rel: string): (r: string)
    ensures |rel| > 0 && rel[0] == '/' ==> r == rel
    ensures rel == "" ==> r == base
    ensures |rel| > 0 && rel[0] != '/' ==> r == base + "/" + rel
  {
    if rel == "" then base
    else if rel[0] == '/' then rel
    else base + "/" + rel
  }

  /** Resolving a named path against a directory gives a named path with
      the same last segment. */
  lemma ResolveKeepsName(base: string, rel: string)
    ensures Named(rel) ==> Named(Resolve(base, rel)) && Basename(Resolve(base, rel)) == Basename(rel)
  {
    if Named(rel) {
      var cp := Resolve(base, rel);
      if rel[0] != '/' {
        assert cp == (base + "/") + rel;
        BasenameUnder(base + "/", rel);
      }
      assert cp[|cp| - 1] == rel[|rel| - 1];
    }
  }

  // ----------------------------------------------------------------- lemmas

  lemma {:induction false} DirEndThroughName(p: string, n: string, i: int, matched: bool)
    requires Segment(n) && |p| >= 1
    requires |p| <= i < |p| + 1 + |n|
    requires i == |p| ==> !matched
    ensures DirEnd(p + "/" + n, i, matched) == |p|
    decreases i
  {
    var s := p + "/" + n;
    if i == |p| {
      assert s[i] == '/';
    } else {
      assert s[i] == n[i - |p| - 1];
      assert s[i] != '/';
      DirEndThroughName(p, n, i - 1, false);
    }
  }

  /** The directory of `p/n` is `p` again, for a named `p` and a segment `n`. */
  lemma DirnameOfChild(p: string, n: string)
    requires Named(p) && Segment(n)
    ensures Dirname(p + "/" + n) == p
  {
    var s := p + "/" + n;
    DirEndThroughName(p, n, |s| - 1, true);
    assert s[..|p|] == p;
  }

  lemma {:induction false} DirEndOfRootChild(n: string, i: int, matched: bool)
    requires Segment(n) && i < 1 + |n|
    ensures DirEnd("/" + n, i, matched) == -1
    decreases i
  {
    if i >= 1 {
      var s := "/" + n;
      assert s[i] == n[i - 1];
      DirEndOfRootChild(n, i - 1, false);
    }
  }

  /** The directory of `/n` is the root. */
  lemma DirnameOfRootChild(n: string)
    requires Segment(n)
    ensures Dirname("/" + n) == "/"
  {
    DirEndOfRootChild(n, |n|, true);
  }

  lemma {:induction false} NameStartThroughName(p: string, n: string, i: nat)
    requires Segment(n) && |p| + 1 <= i <= |p| + 1 + |n|
    ensures NameStart(p + "/" + n, i) == |p| + 1
    decreases i
  {
    var s := p + "/" + n;
    if i > |p| + 1 {
      assert s[i - 1] == n[i - |p| - 2];
      NameStartThroughName(p, n, i - 1);
    } else {
      assert s[i - 1] == '/';
    }
  }

  /** `p + '/' + n` is named `n`, and lies in `p` when `p` is named. */
  lemma ChildPath(p: string, n: string)
    ensures Segment(n) ==> Basename(p + "/" + n) == n
    ensures Segment(n) && Named(p) ==> Dirname(p + "/" + n) == p
  {
    if Segment(n) {
      BasenameOfChild(p, n);
      if Named(p) { DirnameOfChild(p, n); }
    }
  }

  /** The last segment of `p/n` is `n`, whatever `p` is. */
  lemma BasenameOfChild(p: string, n: string)
    requires Segment(n)
    ensures Basename(p + "/" + n) == n
  {
    var s := p + "/" + n;
    assert |s| == |p| + 1 + |n|;
    assert s[|s| - 1] == n[|n| - 1];
    assert NameEnd(s, |s|) == |s|;
    NameStartThroughName(p, n, |s| - 1);
    assert s == (p + "/") + n;
    assert s[|p| + 1..] == n;
  }

  /** A joined list of segments names its last segment. */
  lemma {:induction false} JoinSegmentsNamed(segs: seq<string>)
    requires |segs| > 0 && forall i :: 0 <= i < |segs| ==> Segment(segs[i])
    ensures Named(JoinSegments(segs))
  {
    if |segs| > 1 {
      JoinSegmentsNamed(segs[1..]);
    }
  }

  /** Joining one more segment appends `/seg`. */
  lemma {:induction false} JoinSegmentsSnoc(segs: seq<string>, n: string)
    requires |segs| > 0
    ensures JoinSegments(segs + [n]) == JoinSegments(segs) + "/" + n
  {
    if |segs| == 1 {
      assert segs + [n] == [segs[0], n];
    } else {
      assert (segs + [n])[1..] == segs[1..] + [n];
      JoinSegmentsSnoc(segs[1..], n);
    }
  }

  /** Two children of the same directory share no path at or below them. */
  lemma UnderDistinctSiblings(q: string, p: string, a: string, b: string)
    requires '/' !in a && '/' !in b && a != b
    requires Under(q, p + "/" + a)
    ensures !Under(q, p + "/" + b)
  {
    if Under(q, p + "/" + b) {
      UnderSiblingsEqual(q, p, a, b);
    }
  }

  /** The index of the first '/' at or after `k`, or `|q|`. */
  function SlashFrom(q: string, k: nat): (e: nat)
    requires k <= |q|
    ensures k <= e <= |q|
    decreases |q| - k
  {
    if k == |q| || q[k] == '/' then k else SlashFrom(q, k + 1)
  }

  lemma {:induction false} SlashFromAfterSegment(q: string, k: nat, a: string, i: nat)
    requires '/' !in a && k + |a| <= |q|
    requires forall j :: 0 <= j < |a| ==> q[k + j] == a[j]
    requires k + |a| == |q| || q[k + |a|] == '/'
    requires i <= |a|
    ensures SlashFrom(q, k + i) == k + |a|
    decreases |a| - i
  {
    if i < |a| {
      assert q[k + i] == a[i];
      SlashFromAfterSegment(q, k, a, i + 1);
    }
  }

  lemma UnderPrefix(q: string, pa: string)
    requires Under(q, pa)
    ensures |pa| <= |q| && q[..|pa|] == pa
    ensures |pa| == |q| || q[|pa|] == '/'
  {
  }

  lemma ConcatTail(p: string, a: string, q: string)
    requires |p| + 1 + |a| <= |q| && q[..|p| + 1 + |a|] == p + "/" + a
    ensures forall j :: 0 <= j < |a| ==> q[|p| + 1 + j] == a[j]
  {
    var pa := p + "/" + a;
    forall j | 0 <= j < |a| ensures q[|p| + 1 + j] == a[j] {
      assert q[..|pa|][|p| + 1 + j] == pa[|p| + 1 + j];
    }
  }

  /** A slash-free `a` with `q` at or below `p/a` is the segment of `q` that
      starts right after `p/`. */
  lemma UnderSegment(q: string, p: string, a: string)
    requires '/' !in a && Under(q, p + "/" + a)
    ensures SlashFrom(q, |p| + 1) == |p| + 1 + |a|
    ensures forall j :: 0 <= j < |a| ==> q[|p| + 1 + j] == a[j]
  {
    UnderPrefix(q, p + "/" + a);
    ConcatTail(p, a, q);
    SlashFromAfterSegment(q, |p| + 1, a, 0);
  }

  lemma UnderSiblingsEqual(q: string, p: string, a: string, b: string)
    requires '/' !in a && '/' !in b
    requires Under(q, p + "/" + a) && Under(q, p + "/" + b)
    ensures a == b
  {
    UnderSegment(q, p, a);
    UnderSegment(q, p, b);
    assert |a| == |b|;
    forall j | 0 <= j < |a| ensures a[j] == b[j] {
      assert q[|p| + 1 + j] == a[j];
    }
  }
}

=== FILE: render_properties.dfy ===
/** Properties of the render-step decisions: where template files are,
    which names a template sees, and how the resource loader finds the
    resource it renders, including the two places where the renderer as
    written does not reach what its own code expects. */
module RenderProperties {
  import opened Results
  import opened JsonValues
  import opened PathOps
  import opened ContentReader
  import opened Resolver
  import opened ResourceView
  import opened Bindings
  import opened ResourceNames
  import opened HtlRender

  // ------------------------------------------------------- template file

  /** The template of a component sits directly in the component
      directory and is named after the selectors or, without selectors,
      after the last segment of the resource type: `cq/Page` renders with
      `<sourceDir>/cq/Page/Page.html`. */
  lemma TemplateFileLayout(sourceDir: string, ty: string, selectors: Option<string>)
    requires Named(ty)
    requires selectors.Some? ==> '/' !in selectors.value
    ensures Basename(TemplateFile(sourceDir, ty, selectors))
            == (if selectors.None? || selectors.value == "" then Basename(ty) else selectors.value) + ".html"
    ensures Dirname(TemplateFile(sourceDir, ty, selectors)) == Resolve(sourceDir, ty)
  {
    var cp := Resolve(sourceDir, ty);
    ResolveKeepsName(sourceDir, ty);
    var name := if selectors.None? || selectors.value == "" then Basename(cp) else selectors.value;
    HtmlFileSegment(name);
    var file := name + ".html";
    assert TemplateFile(sourceDir, ty, selectors) == cp + "/" + file;
    DirnameOfChild(cp, file);
    BasenameOfChild(cp, file);
  }

  /** A slash-free name with `.html` appended is one path segment. */
  lemma HtmlFileSegment(name: string)
    requires '/' !in name
    ensures Segment(name + ".html")
  {
    var file := name + ".html";
    forall m | 0 <= m < |file| ensures file[m] != '/' {
      if m < |name| {
        assert file[m] == name[m];
      } else {
        assert file[m] == ".html"[m - |name|];
      }
    }
  }

  // ----------------------------------------------------- declared names

  /** Every name the child globals hold is a runtime variable, so the
      compiled template can refer to each of them. */
  lemma ChildGlobalsDeclared(rd: Renderer, t: Contents, g: Globals, res: Resource)
    ensures forall k :: k in ChildGlobals(rd, t, g, res) ==> k in RuntimeVars(rd.custom)
  {
    ProvideKeysDeclared(rd.sourceDir, res.resourceType, rd.custom,
                        BaseChildGlobals(t, g, res), rd.isFile, rd.loadModel);
    var vs := RuntimeVars(rd.custom);
    assert forall k :: k in Names(rd.custom) ==> k in vs by {
      forall k | k in Names(rd.custom) ensures k in vs {
        var i :| 0 <= i < |Names(rd.custom)| && Names(rd.custom)[i] == k;
        assert vs[|StructuralVars| + i] == k;
      }
    }
    assert forall k :: k in StructuralVars ==> k in vs by {
      forall k | k in StructuralVars ensures k in vs {
        var i :| 0 <= i < |StructuralVars| && StructuralVars[i] == k;
        assert vs[i] == k;
      }
    }
  }

  // ------------------------------------------------ relative lookups (F1)

  /** As written, a relative name whose child is absent makes the loader
      throw, whatever `options.resourceType` says: `getChild` reads the type
      of `undefined` before the synthetic fallback is considered. */
  lemma RelativeFallbackUnreachable(rd: Renderer, t: Contents, g: Globals, oName: string,
                                    override: Option<string>, parent: Resource)
    requires !ParseName(oName).absolute
    requires Get(g, ResourceKey) == ResourceRef(parent)
    requires parent.path + "/" + ParseName(oName).base !in t.nodes
    ensures LoadResourceAsWritten(rd, t, g, oName, override) == Fail(ReadOfUndefined)
  {
  }

  /** A concrete case: rendering `missing` below `/page` with the override
      `site/text` throws instead of rendering a `site/text` placeholder. */
  lemma RelativeFallbackExample(rd: Renderer)
    ensures var t := Put(Empty, "/page", JObj([]));
            var g := map[ResourceKey := ResourceRef(Stored("/page", DefaultType)), ResolverKey := ResolverHandle];
            && LoadResourceAsWritten(rd, t, g, "missing", Some("site/text")) == Fail(ReadOfUndefined)
            && LoadResource(rd, t, g, "missing", Some("site/text")).Ok?
  {
    var t := Put(Empty, "/page", JObj([]));
    var g := map[ResourceKey := ResourceRef(Stored("/page", DefaultType)), ResolverKey := ResolverHandle];
    NoDotName("missing");
    assert "/page" + "/" + "missing" !in t.nodes;
    RelativeFallbackUnreachable(rd, t, g, "missing", Some("site/text"), Stored("/page", DefaultType));
    RelativeFallbackSynthesises(rd, t, g, "missing", Some("site/text"), Stored("/page", DefaultType));
  }

  /** A name without '.' or a leading '/' is its own resource name. */
  lemma NoDotName(oName: string)
    requires '.' !in oName && |oName| > 0 && oName[0] != '/'
    ensures ParseName(oName) == ResourceName(false, oName, oName, None)
  {
    SplitDotsHead(oName);
  }

  /** With the lookup the fallback expects, a relative name whose child is
      absent renders a synthetic resource of the override type, placed
      below the parent under the full name. */
  lemma RelativeFallbackSynthesises(rd: Renderer, t: Contents, g: Globals, oName: string,
                                    override: Option<string>, parent: Resource)
    requires !ParseName(oName).absolute
    requires Get(g, ResourceKey) == ResourceRef(parent) && Get(g, ResolverKey) == ResolverHandle
    requires parent.path + "/" + ParseName(oName).base !in t.nodes
    requires Overrides(override)
    ensures var r := LoadResource(rd, t, g, oName, override);
            var s := Synthetic(parent.path + "/" + oName, override.value, JObj([]));
            && r.Ok?
            && r.value.file == TemplateFile(rd.sourceDir, override.value, ParseName(oName).selectors)
            && (!Declares(rd.custom, ResourceKey) ==> Get(r.value.globals, ResourceKey) == ResourceRef(s))
            && (!Declares(rd.custom, PropertiesKey) ==> Get(r.value.globals, PropertiesKey) == Properties(Some(JObj([]))))
  {
  }

  /** Where the child exists the corrected lookup finds what `getChild`
      finds, so the correction changes nothing but the absent case. */
  lemma LocateAgreesWhenChildExists(t: Contents, g: Globals, oName: string, parent: Resource)
    requires !ParseName(oName).absolute
    requires Get(g, ResourceKey) == ResourceRef(parent)
    requires parent.path + "/" + ParseName(oName).base in t.nodes
    ensures LocateAsWritten(t, g, oName) == Locate(t, g, oName)
  {
  }

  // --------------------------------------------- the missing resolver (F2)

  /** As written, a component's template cannot render any absolute
      `data-sly-resource`: its globals hold `undefined` under
      `resourceResolver`, and the loader calls `getResource` on it. */
  lemma AbsoluteNameFailsFromComponent(rd: Renderer, t: Contents, res: Resource, selectors: Option<string>,
                                       oName: string, override: Option<string>)
    requires RendComponentAsWritten(rd, t, res, selectors).Some?
    requires !Declares(rd.custom, ResolverKey)
    requires |oName| > 0 && oName[0] == '/'
    ensures var g := RendComponentAsWritten(rd, t, res, selectors).value.globals;
            && LoadResourceAsWritten(rd, t, g, oName, override) == Fail(ReadOfUndefined)
            && LoadResource(rd, t, g, oName, override) == Fail(ReadOfUndefined)
  {
  }

  /** The `undefined` resolver is handed down: every resource rendered from
      such globals gets `undefined` again. */
  lemma UndefinedResolverInherited(rd: Renderer, t: Contents, g: Globals, res: Resource)
    requires Get(g, ResolverKey) == Undefined && !Declares(rd.custom, ResolverKey)
    ensures Get(ChildGlobals(rd, t, g, res), ResolverKey) == Undefined
  {
  }

  /** With the resolver in the component's globals, an absolute name
      `<dir>/<n>` that points at stored content renders that content. */
  lemma AbsoluteNameResolvesFromComponent(rd: Renderer, t: Contents, res: Resource, selectors: Option<string>,
                                          dir: string, n: string, override: Option<string>)
    requires !Declares(rd.custom, ResolverKey) && !Declares(rd.custom, ResourceKey)
    requires Named(dir) && dir[0] == '/' && Segment(n) && '.' !in n
    requires dir + "/" + n in t.nodes && Typeable(t.nodes[dir + "/" + n])
    ensures RendComponent(rd, t, res, selectors).Some? ==>
            var g := RendComponent(rd, t, res, selectors).value.globals;
            var r := LoadResource(rd, t, g, dir + "/" + n, override);
            var q := dir + "/" + n;
            && r.Ok?
            && Get(r.value.globals, ResourceKey) == ResourceRef(Stored(q, ResourceTypeOf(Some(t.nodes[q])).value))
            && Get(r.value.globals, ResolverKey) == ResolverHandle
  {
    var oName := dir + "/" + n;
    AbsoluteTargetOfName(dir, n);
    var rn := ParseName(oName);
    assert rn.absolute && rn.name == n && rn.selectors.None?;
    assert rn.base == n;
    assert AbsoluteTarget(oName, rn) == oName;
  }

  /** An absolute name `<dir>/<n>` looks up `<dir>/<base>`: the directory of
      the name, then the name without its selectors. */
  lemma AbsoluteTargetOfName(dir: string, n: string)
    requires Named(dir) && dir[0] == '/' && Segment(n)
    ensures AbsoluteTarget(dir + "/" + n, ParseName(dir + "/" + n)) == dir + "/" + ParseName(dir + "/" + n).base
    ensures ParseName(dir + "/" + n).name == n
  {
    var oName := dir + "/" + n;
    assert oName[0] == '/';
    DirnameOfChild(dir, n);
    BasenameOfChild(dir, n);
  }

  // ------------------------------------------------------------- pages

  /** The page's properties reach the template of its `jcr:content`: the
      globals of that render hold the value map of the page's
      `jcr:content` node under `pageProperties`. */
  lemma PagePropertiesReachContent(rd: Renderer, t: Contents, page: Resource)
    requires page.path + "/" + PageContent in t.nodes && Typeable(t.nodes[page.path + "/" + PageContent])
    requires !Declares(rd.custom, PagePropertiesKey)
    ensures RendPage(rd, t, page).Ok?
    ensures Get(RendPage(rd, t, page).value.globals, PagePropertiesKey)
            == Properties(Some(t.nodes[page.path + "/" + PageContent]))
  {
  }

  /** The same holds of the page render as written, whose globals hold
      `undefined` under `resourceResolver`: the page properties reach the
      template of `jcr:content`, which is what that template sees under
      `resource`. */
  lemma PagePropertiesReachContentAsWritten(rd: Renderer, t: Contents, page: Resource)
    requires page.path + "/" + PageContent in t.nodes && Typeable(t.nodes[page.path + "/" + PageContent])
    requires !Declares(rd.custom, PagePropertiesKey) && !Declares(rd.custom, ResourceKey)
    ensures RendPageAsWritten(rd, t, page).Ok?
    ensures Get(RendPageAsWritten(rd, t, page).value.globals, PagePropertiesKey)
            == Properties(Some(t.nodes[page.path + "/" + PageContent]))
    ensures Get(RendPageAsWritten(rd, t, page).value.globals, ResourceKey)
            == ResourceRef(Child(t, page, PageContent).value)
  {
  }

  // ------------------------------------------------------------ bindings

  /** A component whose model script exists renders with `model` bound to
      the script's value on the component's own globals, unless a
      configured binding of that name replaces it. */
  lemma ModelReachesComponent(rd: Renderer, t: Contents, res: Resource, selectors: Option<string>)
    requires rd.isFile(TemplateFile(rd.sourceDir, res.resourceType, selectors))
    requires rd.isFile(ModelPath(rd.sourceDir, res.resourceType)) && !Declares(rd.custom, ModelKey)
    ensures RendComponent(rd, t, res, selectors).Some?
    ensures Get(RendComponent(rd, t, res, selectors).value.globals, ModelKey)
            == rd.loadModel(ModelPath(rd.sourceDir, res.resourceType), ComponentBase(t, res, ResolverHandle))
  {
  }

  /** A resource found by `data-sly-resource` renders with every configured
      binding under its name, evaluated on the resource's own globals. */
  lemma BindingReachesChild(rd: Renderer, t: Contents, g: Globals, oName: string, override: Option<string>,
                            res: Resource, i: nat)
    requires Locate(t, g, oName) == Ok(Some(res))
    requires rd.custom.Some? && i < |rd.custom.value|
    ensures LoadResource(rd, t, g, oName, override).Ok?
    ensures Get(LoadResource(rd, t, g, oName, override).value.globals, rd.custom.value[i].name)
            == Evaluate(rd.custom.value[i].binding, BaseChildGlobals(t, g, res))
  {
  }

  // -------------------------------------------------------- module import

  /** The module import picks the first existing file of `moduleId` and
      the built-in model, in that order. */
  lemma ModuleImportFirstExisting(libDir: string, isFile: string -> bool, varName: string, moduleId: string)
    ensures var r := ModuleImport(libDir, isFile, varName, moduleId);
            var f := FirstExisting([moduleId, BuiltinModel(libDir, moduleId)], isFile);
            && (r.Some? <==> f.Some?)
            && (r.Some? ==> r.value.moduleFile == f.value)
  {
    var cands := [moduleId, BuiltinModel(libDir, moduleId)];
    var f := FirstExisting(cands, isFile);
    if f.Some? {
      var i :| 0 <= i < |cands| && cands[i] == f.value && isFile(f.value) && forall j :: 0 <= j < i ==> !isFile(cands[j]);
      assert i == 0 || !isFile(cands[0]);
    } else {
      assert !isFile(cands[0]) && !isFile(cands[1]);
    }
  }
}

=== FILE: resolver.dfy ===
/** The resource resolver: read-only queries over the exploded contents.

    Every query builds its resources through `MakeResource`, which derives
    the resource type from the stored node and throws when the node is
    `undefined` (an absent path) or `null`. None of the queries changes the
    contents: they are functions of the contents value. */
module Resolver {
  import opened Results
  import opened JsonValues
  import opened PathOps
  import opened ContentReader

  /** A resource: a path and a resource type. The resolver only makes
      `Stored` ones; a `Synthetic` one is made by the resource loader for a
      path with no content and carries its own (empty) content. */
  datatype Resource =
    | Stored(path: string, resourceType: string)
    | Synthetic(path: string, resourceType: string, content: Json)

  const SlingResourceType := "sling:resourceType"
  const JcrPrimaryType := "jcr:primaryType"
  const DefaultType := "nt/unstructured"

  /** `s.replace(/:/g, '/')`. */
  function ReplaceColons(s: string): (r: string)
    ensures |r| == |s|
    ensures forall i :: 0 <= i < |s| ==> r[i] == (if s[i] == ':' then '/' else s[i])
  {
    if |s| == 0 then ""
    else [if s[0] == ':' then '/' else s[0]] + ReplaceColons(s[1..])
  }

  /** `_getResourceType(content)`: a truthy `sling:resourceType` as it is,
      else a truthy `jcr:primaryType` with every ':' turned into '/', else
      `nt/unstructured`. Reading either field of `undefined` or `null`
      throws, and so does `.replace` on a non-string `jcr:primaryType`. A
      derived type is never empty and never comes from a falsy field. */
  function ResourceTypeOf(content: Option<Json>): (r: Result<string>)
    ensures content.None? ==> r == Fail(ReadOfUndefined)
    ensures content == Some(JNull) ==> r == Fail(ReadOfNull)
    ensures r.Ok? ==> |r.value| > 0
    ensures r.Ok? && r.value != DefaultType ==>
              content.Some? && !content.value.JNull? &&
              (Truthy(Prop(content.value, SlingResourceType)) || Truthy(Prop(content.value, JcrPrimaryType)))
  {
    match content
    case None => Fail(ReadOfUndefined)
    case Some(v) =>
      if v.JNull? then Fail(ReadOfNull)
      else
        var sling := Prop(v, SlingResourceType);
        if Truthy(sling) then
          (if sling.value.JStr? then Ok(sling.value.s) else Fail(NonStringResourceType))
        else
          var primary := Prop(v, JcrPrimaryType);
          if Truthy(primary) then
            (if primary.value.JStr? then Ok(ReplaceColons(primary.value.s)) else Fail(ReplaceOnNonString))
          else Ok(DefaultType)
  }

  /** A node the resolver can make a resource of. */
  predicate Typeable(v: Json) {
    ResourceTypeOf(Some(v)).Ok?
  }

  /** `_makeResource(path, content)`. */
  function MakeResource(path: string, content: Option<Json>): (r: Result<Resource>)
    ensures r.Ok? <==> ResourceTypeOf(content).Ok?
    ensures r.Ok? ==> r.value == Stored(path, ResourceTypeOf(content).value)
    ensures r.Fail? ==> r.fault == ResourceTypeOf(content).fault
  {
    var ty :- ResourceTypeOf(content);
    Ok(Stored(path, ty))
  }

  /** `contents[k]`: `undefined` for an absent key. */
  function ContentAt(t: Contents, k: string): (r: Option<Json>)
    ensures r.Some? <==> k in t.nodes
    ensures r.Some? ==> r.value == t.nodes[k]
  {
    if k in t.nodes then Some(t.nodes[k]) else None
  }

  function Found(r: Result<Resource>): Result<Option<Resource>> {
    match r
    case Ok(x) => Ok(Some(x))
    case Fail(f) => Fail(f)
  }

  predicate Distinct<T(==)>(s: seq<T>) {
    forall i, j :: 0 <= i < j < |s| ==> s[i] != s[j]
  }

  /** The keys of the contents still to be visited by a scan. */
  predicate KeysOf(t: Contents, ks: seq<string>) {
    Distinct(ks) && forall i :: 0 <= i < |ks| ==> ks[i] in t.nodes
  }

  lemma OrderIsKeys(t: Contents)
    ensures KeysOf(t, t.order)
  {
  }

  lemma KeysOfTail(t: Contents, ks: seq<string>)
    requires KeysOf(t, ks) && |ks| > 0
    ensures KeysOf(t, ks[1..]) && ks[0] !in ks[1..]
  {
    forall j | 0 <= j < |ks| - 1
      ensures ks[1..][j] != ks[0]
    {
      assert ks[1..][j] == ks[j + 1];
    }
  }

  // ---------------------------------------------------------- getResource

  /** The `for ... in` scan of `getResource` over the keys `ks`. */
  function ScanFor(t: Contents, ks: seq<string>, q: string): (r: Result<Option<Resource>>)
    requires KeysOf(t, ks)
    ensures q in ks ==> r == Found(MakeResource(q, Some(t.nodes[q])))
    ensures q !in ks ==> r == Ok(None)
  {
    if |ks| == 0 then Ok(None)
    else if ks[0] == q then Found(MakeResource(q, Some(t.nodes[q])))
    else
      KeysOfTail(t, ks);
      ScanFor(t, ks[1..], q)
  }

  /** `getResource(q)`: a resource at exactly `q` when `q` is a key, `null`
      (here `None`) when it is not; a key holding `null` throws. */
  function GetResource(t: Contents, q: string): (r: Result<Option<Resource>>)
    ensures r == Ok(None) <==> q !in t.nodes
    ensures r.Ok? && r.value.Some? ==>
              q in t.nodes && r.value.value == Stored(q, r.value.value.resourceType) &&
              ResourceTypeOf(Some(t.nodes[q])) == Ok(r.value.value.resourceType)
    ensures r.Fail? <==> q in t.nodes && !Typeable(t.nodes[q])
  {
    OrderIsKeys(t);
    ScanFor(t, t.order, q)
  }

  // ---------------------------------------------- getChild / getParent

  /** `getChild(resource, name)`: the resource at `path/name`, made without
      checking that the key exists, so an absent child throws. */
  function GetChild(t: Contents, res: Resource, name: string): (r: Result<Resource>)
    ensures r.Ok? ==> r.value.path == res.path + "/" + name
    ensures r.Ok? ==> var p := res.path + "/" + name;
                      p in t.nodes && r.value == Stored(p, r.value.resourceType) && ResourceTypeOf(Some(t.nodes[p])) == Ok(r.value.resourceType)
    ensures res.path + "/" + name !in t.nodes ==> r == Fail(ReadOfUndefined)
    ensures r.Ok? <==> res.path + "/" + name in t.nodes && Typeable(t.nodes[res.path + "/" + name])
  {
    var p := res.path + "/" + name;
    MakeResource(p, ContentAt(t, p))
  }

  /** `getParent(resource)`: the resource at `dirname(path)`; a missing
      parent (e.g. above the content root) throws. */
  function GetParent(t: Contents, res: Resource): (r: Result<Resource>)
    ensures r.Ok? ==> var p := Dirname(res.path);
                      p in t.nodes && r.value == Stored(p, r.value.resourceType) && ResourceTypeOf(Some(t.nodes[p])) == Ok(r.value.resourceType)
    ensures r.Ok? <==> Dirname(res.path) in t.nodes && Typeable(t.nodes[Dirname(res.path)])
    ensures Dirname(res.path) !in t.nodes ==> r == Fail(ReadOfUndefined)
  {
    var p := Dirname(res.path);
    MakeResource(p, ContentAt(t, p))
  }

  /** `getValueMap(resource)`: the stored node at the resource's path, or
      `undefined`. */
  function GetValueMap(t: Contents, res: Resource): (r: Option<Json>)
    ensures r.Some? <==> res.path in t.nodes
    ensures r.Some? ==> r.value == t.nodes[res.path]
  {
    ContentAt(t, res.path)
  }

  // ------------------------------------------------------- getChildren

  function PathsOf(rs: seq<Resource>): (ps: seq<string>)
    ensures |ps| == |rs| && forall i :: 0 <= i < |rs| ==> ps[i] == rs[i].path
  {
    if |rs| == 0 then [] else [rs[0].path] + PathsOf(rs[1..])
  }

  /** `a` is `b` with some elements left out. */
  ghost predicate IsSubsequence<T>(a: seq<T>, b: seq<T>)
    decreases |b|
  {
    |a| == 0 || (|b| > 0 && if a[0] == b[0] then IsSubsequence(a[1..], b[1..]) else IsSubsequence(a, b[1..]))
  }

  /** The scan of `getChildren` over the keys `ks`: a resource for every key
      whose `dirname` is `dir`, in key order. The scan throws when such a
      key holds a node no type can be derived from. */
  function ChildrenScan(t: Contents, ks: seq<string>, dir: string): (r: Result<seq<Resource>>)
    requires KeysOf(t, ks)
    ensures r.Ok? ==> forall i :: 0 <= i < |r.value| ==>
              && r.value[i].path in ks
              && Dirname(r.value[i].path) == dir
              && r.value[i] == Stored(r.value[i].path, r.value[i].resourceType)
              && ResourceTypeOf(Some(t.nodes[r.value[i].path])) == Ok(r.value[i].resourceType)
  {
    if |ks| == 0 then Ok([])
    else
      var k := ks[0];
      KeysOfTail(t, ks);
      var restR := ChildrenScan(t, ks[1..], dir);
      if Dirname(k) == dir then
        match MakeResource(k, Some(t.nodes[k]))
        case Fail(f) => Fail(f)
        case Ok(c) =>
          match restR
          case Fail(f) => Fail(f)
          case Ok(rest) => Ok([c] + rest)
      else
        restR
  }

  /** The children scan throws exactly when a key below `dir` holds a node
      without a type. */
  lemma {:induction false} ChildrenScanThrows(t: Contents, ks: seq<string>, dir: string)
    requires KeysOf(t, ks)
    ensures ChildrenScan(t, ks, dir).Ok? <==>
            forall i :: 0 <= i < |ks| && Dirname(ks[i]) == dir ==> Typeable(t.nodes[ks[i]])
  {
    if |ks| > 0 {
      KeysOfTail(t, ks);
      ChildrenScanThrows(t, ks[1..], dir);
      assert forall i :: 1 <= i < |ks| ==> ks[i] == ks[1..][i - 1];
    }
  }

  /** A children scan that succeeds keeps exactly the keys below `dir`,
      each once and in key order. */
  lemma {:induction false} ChildrenScanKeeps(t: Contents, ks: seq<string>, dir: string)
    requires KeysOf(t, ks) && ChildrenScan(t, ks, dir).Ok?
    ensures var ps := PathsOf(ChildrenScan(t, ks, dir).value);
            forall k :: k in ps <==> k in ks && Dirname(k) == dir
    ensures var ps := PathsOf(ChildrenScan(t, ks, dir).value);
            Distinct(ps) && IsSubsequence(ps, ks)
  {
    if |ks| > 0 {
      var k := ks[0];
      KeysOfTail(t, ks);
      var rest := ChildrenScan(t, ks[1..], dir).value;
      ChildrenScanKeeps(t, ks[1..], dir);
      var ps := PathsOf(ChildrenScan(t, ks, dir).value);
      assert ks == [k] + ks[1..];
      if Dirname(k) == dir {
        var c := MakeResource(k, Some(t.nodes[k])).value;
        assert ChildrenScan(t, ks, dir).value == [c] + rest;
        assert ps == [k] + PathsOf(rest);
        assert ps[1..] == PathsOf(rest);
      } else {
        assert ps == PathsOf(rest);
        assert k !in ps;
      }
      SubsequenceOfDistinct(ps, ks);
    }
  }

  /** `getChildren(resource)`: every entry exactly one segment below the
      resource (its `dirname` is the resource's path), in contents order,
      each at most once, with the type derived from its node. */
  function GetChildren(t: Contents, res: Resource): (r: Result<seq<Resource>>)
    ensures r.Ok? <==> forall k :: k in t.nodes && Dirname(k) == res.path ==> Typeable(t.nodes[k])
    ensures r.Ok? ==> forall c :: c in r.value ==> c.path in t.nodes && Dirname(c.path) == res.path
    ensures r.Ok? ==> forall c :: c in r.value ==>
              c.path in t.nodes && c == Stored(c.path, c.resourceType) && ResourceTypeOf(Some(t.nodes[c.path])) == Ok(c.resourceType)
    ensures r.Ok? ==> forall k :: k in t.nodes && Dirname(k) == res.path ==> k in PathsOf(r.value)
    ensures r.Ok? ==> Distinct(PathsOf(r.value)) && IsSubsequence(PathsOf(r.value), t.order)
  {
    OrderIsKeys(t);
    var r := ChildrenScan(t, t.order, res.path);
    GetChildrenBridge(t, res.path, r);
    r
  }

  lemma GetChildrenBridge(t: Contents, dir: string, r: Result<seq<Resource>>)
    requires KeysOf(t, t.order) && r == ChildrenScan(t, t.order, dir)
    ensures r.Ok? <==> forall k :: k in t.nodes && Dirname(k) == dir ==> Typeable(t.nodes[k])
    ensures r.Ok? ==> forall c :: c in r.value ==>
              && c.path in t.nodes && Dirname(c.path) == dir
              && c == Stored(c.path, c.resourceType) && ResourceTypeOf(Some(t.nodes[c.path])) == Ok(c.resourceType)
    ensures r.Ok? ==> forall k :: k in t.nodes && Dirname(k) == dir ==> k in PathsOf(r.value)
    ensures r.Ok? ==> Distinct(PathsOf(r.value)) && IsSubsequence(PathsOf(r.value), t.order)
  {
    ChildrenScanThrows(t, t.order, dir);
    assert forall k :: k in t.nodes <==> k in t.order;
    if r.Ok? {
      ChildrenScanKeeps(t, t.order, dir);
      forall c | c in r.value
        ensures && c.path in t.nodes && Dirname(c.path) == dir
                && c == Stored(c.path, c.resourceType) && ResourceTypeOf(Some(t.nodes[c.path])) == Ok(c.resourceType)
      {
        var i :| 0 <= i < |r.value| && r.value[i] == c;
      }
    } else {
      var i :| 0 <= i < |t.order| && Dirname(t.order[i]) == dir && !Typeable(t.nodes[t.order[i]]);
      assert t.order[i] in t.nodes;
    }
  }

  // ----------------------------------------------------- findResources

  /** The scan of `findResources` over the keys `ks`: the type of EVERY node
      is derived, so any node without one makes the scan throw; the nodes
      whose type equals `ty` are kept, in key order. */
  function FindScan(t: Contents, ks: seq<string>, ty: string): (r: Result<seq<Resource>>)
    requires KeysOf(t, ks)
    ensures r.Ok? ==> forall i :: 0 <= i < |r.value| ==> r.value[i] == Stored(r.value[i].path, ty)
  {
    if |ks| == 0 then Ok([])
    else
      var k := ks[0];
      KeysOfTail(t, ks);
      var restR := FindScan(t, ks[1..], ty);
      var kty := ResourceTypeOf(Some(t.nodes[k]));
      if kty.Fail? then Fail(kty.fault)
      else if restR.Fail? then restR
      else if kty.value == ty then Ok([Stored(k, ty)] + restR.value)
      else restR
  }

  /** The scan throws exactly when some key holds a node without a type. */
  lemma {:induction false} FindScanThrows(t: Contents, ks: seq<string>, ty: string)
    requires KeysOf(t, ks)
    ensures FindScan(t, ks, ty).Ok? <==> forall i :: 0 <= i < |ks| ==> Typeable(t.nodes[ks[i]])
  {
    if |ks| > 0 {
      KeysOfTail(t, ks);
      FindScanThrows(t, ks[1..], ty);
      assert forall i :: 1 <= i < |ks| ==> ks[i] == ks[1..][i - 1];
    }
  }

  /** A scan that succeeds keeps exactly the keys of type `ty`, each once
      and in key order. */
  lemma {:induction false} FindScanKeeps(t: Contents, ks: seq<string>, ty: string)
    requires KeysOf(t, ks) && FindScan(t, ks, ty).Ok?
    ensures var ps := PathsOf(FindScan(t, ks, ty).value);
            forall k :: k in ps <==> k in ks && ResourceTypeOf(Some(t.nodes[k])) == Ok(ty)
    ensures var ps := PathsOf(FindScan(t, ks, ty).value);
            Distinct(ps) && IsSubsequence(ps, ks)
  {
    if |ks| > 0 {
      var k := ks[0];
      KeysOfTail(t, ks);
      var rest := FindScan(t, ks[1..], ty).value;
      FindScanKeeps(t, ks[1..], ty);
      var ps := PathsOf(FindScan(t, ks, ty).value);
      assert ks == [k] + ks[1..];
      if ResourceTypeOf(Some(t.nodes[k])) == Ok(ty) {
        assert FindScan(t, ks, ty).value == [Stored(k, ty)] + rest;
        assert ps == [k] + PathsOf(rest);
        assert ps[1..] == PathsOf(rest);
      } else {
        assert ps == PathsOf(rest);
        assert k !in ps;
      }
      SubsequenceOfDistinct(ps, ks);
    }
  }

  /** `findResources(ty)`: exactly the entries whose derived type equals
      `ty`, each once, in contents order. It throws as soon as any entry
      (matching or not) has no type, e.g. a `null` field anywhere in the
      content. */
  function FindResources(t: Contents, ty: string): (r: Result<seq<Resource>>)
    ensures r.Ok? <==> forall k :: k in t.nodes ==> Typeable(t.nodes[k])
    ensures r.Ok? ==> forall c :: c in r.value ==> c.path in t.nodes && c.resourceType == ty && c.Stored?
    ensures r.Ok? ==> forall k :: k in t.nodes ==>
              (k in PathsOf(r.value) <==> ResourceTypeOf(Some(t.nodes[k])) == Ok(ty))
    ensures r.Ok? ==> Distinct(PathsOf(r.value)) && IsSubsequence(PathsOf(r.value), t.order)
  {
    OrderIsKeys(t);
    var r := FindScan(t, t.order, ty);
    FindResourcesBridge(t, ty, r);
    r
  }

  lemma FindResourcesBridge(t: Contents, ty: string, r: Result<seq<Resource>>)
    requires KeysOf(t, t.order) && r == FindScan(t, t.order, ty)
    ensures r.Ok? <==> forall k :: k in t.nodes ==> Typeable(t.nodes[k])
    ensures r.Ok? ==> forall c :: c in r.value ==> c.path in t.nodes && c.resourceType == ty && c.Stored?
    ensures r.Ok? ==> forall k :: k in t.nodes ==>
              (k in PathsOf(r.value) <==> ResourceTypeOf(Some(t.nodes[k])) == Ok(ty))
    ensures r.Ok? ==> Distinct(PathsOf(r.value)) && IsSubsequence(PathsOf(r.value), t.order)
  {
    FindScanThrows(t, t.order, ty);
    assert forall k :: k in t.nodes <==> k in t.order;
    if r.Ok? {
      FindScanKeeps(t, t.order, ty);
      var ps := PathsOf(r.value);
      forall c | c in r.value
        ensures c.path in t.nodes && c.resourceType == ty && c.Stored?
      {
        var i :| 0 <= i < |r.value| && r.value[i] == c;
        assert ps[i] == c.path;
      }
    } else {
      var i :| 0 <= i < |t.order| && !Typeable(t.nodes[t.order[i]]);
      assert t.order[i] in t.nodes;
    }
  }

  // ------------------------------------------------------------ lemmas

  /** Without a truthy `sling:resourceType`, a non-empty string
      `jcr:primaryType` decides the type: every ':' in it becomes '/'. */
  lemma PrimaryTypeDecides(fs: seq<Field>, s: string)
    requires !Truthy(Lookup(fs, SlingResourceType))
    requires Lookup(fs, JcrPrimaryType) == Some(JStr(s)) && s != ""
    ensures ResourceTypeOf(Some(JObj(fs))) == Ok(ReplaceColons(s))
  {
    assert Prop(JObj(fs), JcrPrimaryType) == Some(JStr(s));
    assert Truthy(Some(JStr(s)));
  }

  /** Without a truthy `sling:resourceType`, a truthy `jcr:primaryType`
      that is not a string (`true`, a number, an object) has no `replace`,
      so deriving the type throws. */
  lemma PrimaryTypeNotString(v: Json)
    requires !v.JNull?
    requires !Truthy(Prop(v, SlingResourceType))
    requires Truthy(Prop(v, JcrPrimaryType)) && !Prop(v, JcrPrimaryType).value.JStr?
    ensures ResourceTypeOf(Some(v)) == Fail(ReplaceOnNonString)
  {
  }

  /** Deriving the type of a stored node other than `null` throws exactly
      when the field that decides it is truthy but not a string. */
  lemma ResourceTypeFails(v: Json)
    requires !v.JNull?
    ensures var sling := Prop(v, SlingResourceType);
            var primary := Prop(v, JcrPrimaryType);
            ResourceTypeOf(Some(v)).Fail? <==>
              || (Truthy(sling) && !sling.value.JStr?)
              || (!Truthy(sling) && Truthy(primary) && !primary.value.JStr?)
  {
  }

  /** A colon-separated `jcr:primaryType` becomes a slash-separated type:
      `ns:name` gives `ns/name`. */
  lemma PrimaryTypeNamespace(fs: seq<Field>, ns: string, local: string)
    requires ':' !in ns && ':' !in local
    requires !Truthy(Lookup(fs, SlingResourceType))
    requires Lookup(fs, JcrPrimaryType) == Some(JStr(ns + ":" + local))
    ensures ResourceTypeOf(Some(JObj(fs))) == Ok(ns + "/" + local)
  {
    var s := ns + ":" + local;
    PrimaryTypeDecides(fs, s);
    var r := ReplaceColons(s);
    forall i | 0 <= i < |s| ensures r[i] == (ns + "/" + local)[i] {
      if i < |ns| {
        assert s[i] == ns[i];
      } else if i > |ns| {
        assert s[i] == local[i - |ns| - 1];
      } else {
        assert s[i] == ':';
      }
    }
    assert r == ns + "/" + local;
  }

  /** `{ "jcr:primaryType": "cq:Page" }` is a `cq/Page`. */
  lemma PageTypeExample()
    ensures ResourceTypeOf(Some(JObj([Field("jcr:primaryType", JStr("cq:Page"))]))) == Ok("cq/Page")
  {
    var s := "cq" + ":" + "Page";
    assert s == "cq:Page";
    var fs := [Field(JcrPrimaryType, JStr(s))];
    assert fs[0].name != SlingResourceType;
    assert Lookup(fs, SlingResourceType) == None;
    assert Lookup(fs, JcrPrimaryType) == Some(JStr(s));
    PrimaryTypeNamespace(fs, "cq", "Page");
    assert "cq" + "/" + "Page" == "cq/Page";
  }

  /** A truthy string `sling:resourceType` decides the type whatever
      `jcr:primaryType` says. */
  lemma SlingTypeWins(fs: seq<Field>, gs: seq<Field>, ty: string)
    requires ty != ""
    requires Lookup(fs, SlingResourceType) == Some(JStr(ty))
    requires Lookup(gs, SlingResourceType) == Some(JStr(ty))
    ensures ResourceTypeOf(Some(JObj(fs))) == ResourceTypeOf(Some(JObj(gs))) == Ok(ty)
  {
  }

  /** Without either reserved field a node is `nt/unstructured`. */
  lemma DefaultTypeWhenUnmarked(v: Json)
    requires !v.JNull?
    requires !Truthy(Prop(v, SlingResourceType)) && !Truthy(Prop(v, JcrPrimaryType))
    ensures ResourceTypeOf(Some(v)) == Ok(DefaultType)
  {
  }

  /** A subsequence of a list without repeats has none either. */
  lemma {:induction false} SubsequenceOfDistinct<T>(a: seq<T>, b: seq<T>)
    requires IsSubsequence(a, b) && Distinct(b)
    ensures Distinct(a) && forall x :: x in a ==> x in b
    decreases |b|
  {
    if |a| > 0 {
      assert Distinct(b[1..]) by {
        forall i, j | 0 <= i < j < |b[1..]| ensures b[1..][i] != b[1..][j] {
          assert b[1..][i] == b[i + 1] && b[1..][j] == b[j + 1];
        }
      }
      assert b == [b[0]] + b[1..];
      if a[0] == b[0] {
        SubsequenceOfDistinct(a[1..], b[1..]);
        assert b[0] !in b[1..] by {
          forall j | 0 <= j < |b| - 1 ensures b[1..][j] != b[0] {
            assert b[1..][j] == b[j + 1];
          }
        }
        forall i, j | 0 <= i < j < |a| ensures a[i] != a[j] {
          assert a[j] == a[1..][j - 1];
          if i > 0 {
            assert a[i] == a[1..][i - 1];
          }
        }
        assert a == [a[0]] + a[1..];
      } else {
        SubsequenceOfDistinct(a, b[1..]);
      }
    }
  }
}

=== FILE: resource_names.dfy ===
/** How the resource loader reads the name given to `data-sly-resource`:
    an absolute name (starting with '/') contributes only its last segment;
    the part before the first '.' is the resource name and the rest, when
    there is a '.', are the selectors. */
module ResourceNames {
  import opened Results
  import opened PathOps

  /** `s.split('.')`: the maximal dot-free pieces, in order; the empty
      string splits into one empty piece. */
  function SplitDots(s: string): (parts: seq<string>)
    ensures |parts| >= 1
    ensures forall i :: 0 <= i < |parts| ==> '.' !in parts[i]
  {
    if |s| == 0 then [""]
    else
      var rest := SplitDots(s[1..]);
      if s[0] == '.' then [""] + rest
      else [[s[0]] + rest[0]] + rest[1..]
  }

  /** `parts.join('.')`. */
  function JoinDots(parts: seq<string>): string {
    if |parts| == 0 then ""
    else if |parts| == 1 then parts[0]
    else parts[0] + "." + JoinDots(parts[1..])
  }

  lemma JoinDotsCons(parts: seq<string>)
    requires |parts| >= 1
    ensures JoinDots(parts) == parts[0] + (if |parts| > 1 then "." + JoinDots(parts[1..]) else "")
  {
  }

  /** Joining the pieces of a split gives back the string. */
  lemma {:induction false} JoinSplit(s: string)
    ensures JoinDots(SplitDots(s)) == s
  {
    if |s| > 0 {
      var rest := SplitDots(s[1..]);
      JoinSplit(s[1..]);
      JoinDotsCons(rest);
      if s[0] == '.' {
        assert JoinDots([""] + rest) == "" + "." + JoinDots(rest);
        assert s == [s[0]] + s[1..];
      } else {
        var parts := [[s[0]] + rest[0]] + rest[1..];
        JoinDotsCons(parts);
        if |rest| > 1 {
          assert parts[1..] == rest[1..];
        }
        assert s == [s[0]] + s[1..];
      }
    }
  }

  /** The first piece of a split is the text before the first '.'. */
  lemma {:induction false} SplitDotsHead(s: string)
    ensures |SplitDots(s)| == 1 <==> '.' !in s
    ensures |SplitDots(s)| == 1 ==> SplitDots(s)[0] == s
  {
    if |s| > 0 {
      SplitDotsHead(s[1..]);
      assert s == [s[0]] + s[1..];
    }
  }

  /** A parsed `data-sly-resource` name. `name` is what the selectors are
      read from: the whole name, or the last segment of an absolute one. */
  datatype ResourceName = ResourceName(absolute: bool, name: string, base: string, selectors: Option<string>)

  /** Parsing of the name `oName` at the start of the resource loader. */
  function ParseName(oName: string): (rn: ResourceName)
    ensures rn.absolute <==> |oName| > 0 && oName[0] == '/'
    ensures !rn.absolute ==> rn.name == oName
    ensures rn.absolute ==> rn.name == Basename(oName) && '/' !in rn.name
    ensures '.' !in rn.base
    ensures rn.selectors.None? <==> '.' !in rn.name
    ensures rn.base + (if rn.selectors.Some? then "." + rn.selectors.value else "") == rn.name
  {
    var absolute := |oName| > 0 && oName[0] == '/';
    var name := if absolute then Basename(oName) else oName;
    var parts := SplitDots(name);
    var selectors := if |parts| > 1 then Some(JoinDots(parts[1..])) else None;
    JoinSplit(name);
    JoinDotsCons(parts);
    SplitDotsHead(name);
    ResourceName(absolute, name, parts[0], selectors)
  }

  // ------------------------------------------------------------ lemmas

  /** `child.teaser` names the child `child` with the selector `teaser`. */
  lemma ParseNameExample()
    ensures ParseName("child.teaser") == ResourceName(false, "child.teaser", "child", Some("teaser"))
  {
    assert "child.teaser" == "child" + "." + "teaser";
    SelectorsKeepDots("child", "teaser");
  }

  /** Splitting `a.b` for a dot-free `a` gives `a` first and the pieces of `b`
      after it. */
  lemma {:induction false} SplitDotsPrefix(a: string, b: string)
    requires '.' !in a
    ensures SplitDots(a + "." + b) == [a] + SplitDots(b)
  {
    if |a| == 0 {
      assert a + "." + b == ['.'] + b;
      assert (['.'] + b)[1..] == b;
    } else {
      SplitDotsPrefix(a[1..], b);
      assert (a + "." + b)[1..] == a[1..] + "." + b;
      assert [a[0]] + a[1..] == a;
    }
  }

  /** A name with several selectors keeps them joined by '.'. */
  lemma SelectorsKeepDots(base: string, sels: string)
    requires '.' !in base && '/' !in base && '/' !in sels && |base| > 0 && base[0] != '/'
    ensures ParseName(base + "." + sels).base == base
    ensures ParseName(base + "." + sels).selectors == Some(sels)
  {
    var oName := base + "." + sels;
    SplitDotsPrefix(base, sels);
    JoinSplit(sels);
    assert oName[0] == base[0];
  }
}

=== FILE: resource_view.dfy ===
/** The `Resource` object: a path and a resource type plus accessors that
    delegate to the resolver that made it.

    Every resource of the plugin shares one resolver, so the accessors take
    the contents it reads as a parameter. A `Synthetic` resource is one the
    resource loader invents for a path without content; its value map is
    the content it was made with. */
module ResourceView {
  import opened Results
  import opened JsonValues
  import opened PathOps
  import opened ContentReader
  import opened Resolver

  /** The `name` getter: the last segment of the path, a non-empty suffix
      without '/' that starts the path or follows a '/'. */
  function Name(r: Resource): (n: string)
    ensures '/' !in n
    ensures Named(r.path) ==> && 0 < |n| <= |r.path|
                              && r.path[|r.path| - |n|..] == n
                              && (|n| == |r.path| || r.path[|r.path| - |n| - 1] == '/')
  {
    BasenameIsLastSegment(r.path);
    Basename(r.path)
  }

  /** The `children` getter and `listChildren()`: both are the resolver's
      `getChildren` for this resource, so they always agree. */
  function Children(t: Contents, r: Resource): (cs: Result<seq<Resource>>)
    ensures cs.Ok? ==> forall c :: c in cs.value ==>
              && c.path in t.nodes && Dirname(c.path) == r.path
              && c == Stored(c.path, c.resourceType) && ResourceTypeOf(Some(t.nodes[c.path])) == Ok(c.resourceType)
    ensures cs.Ok? ==> forall k :: k in t.nodes && Dirname(k) == r.path ==> k in PathsOf(cs.value)
    ensures cs.Ok? <==> forall k :: k in t.nodes && Dirname(k) == r.path ==> Typeable(t.nodes[k])
    ensures cs.Ok? ==> Distinct(PathsOf(cs.value)) && IsSubsequence(PathsOf(cs.value), t.order)
  {
    GetChildren(t, r)
  }

  /** The `valueMap` getter: the node stored at the resource's path (the
      resolver's `getValueMap`), or the content a synthetic resource was
      made with. */
  function ValueMap(t: Contents, r: Resource): (v: Option<Json>)
    ensures r.Stored? ==> (v.Some? <==> r.path in t.nodes)
    ensures r.Stored? && v.Some? ==> v.value == t.nodes[r.path]
    ensures r.Synthetic? ==> v == Some(r.content)
  {
    match r
    case Stored(_, _) => GetValueMap(t, r)
    case Synthetic(_, _, content) => Some(content)
  }

  /** The `parent` getter: the resolver's `getParent`. */
  function Parent(t: Contents, r: Resource): (p: Result<Resource>)
    ensures p.Ok? ==> var q := Dirname(r.path);
                      q in t.nodes && p.value == Stored(q, p.value.resourceType) && ResourceTypeOf(Some(t.nodes[q])) == Ok(p.value.resourceType)
    ensures p.Ok? <==> Dirname(r.path) in t.nodes && Typeable(t.nodes[Dirname(r.path)])
  {
    GetParent(t, r)
  }

  /** `getChild(name)`: the resolver's `getChild`. */
  function Child(t: Contents, r: Resource, name: string): (c: Result<Resource>)
    ensures c.Ok? ==> var q := r.path + "/" + name;
                      q in t.nodes && c.value == Stored(q, c.value.resourceType) && ResourceTypeOf(Some(t.nodes[q])) == Ok(c.value.resourceType)
    ensures c.Ok? <==> r.path + "/" + name in t.nodes && Typeable(t.nodes[r.path + "/" + name])
  {
    GetChild(t, r, name)
  }

  // ------------------------------------------------------------ lemmas

  /** A child fetched by a segment name is called by that name. */
  lemma NameOfChild(t: Contents, r: Resource, n: string)
    requires Segment(n) && Child(t, r, n).Ok?
    ensures Name(Child(t, r, n).value) == n
  {
    BasenameOfChild(r.path, n);
  }

  /** Going to a child and back up gives the resource again, for a resource
      the resolver made at a named path (any path but the root `/`). */
  lemma ChildParentRoundTrip(t: Contents, p: string, r: Resource, n: string)
    requires GetResource(t, p) == Ok(Some(r))
    requires Named(p) && Segment(n)
    requires Child(t, r, n).Ok?
    ensures Parent(t, Child(t, r, n).value) == Ok(r)
  {
    DirnameOfChild(r.path, n);
  }

  /** Below the root the round trip breaks: the child of `/` is at `//n`,
      and Node's `dirname` of `//n` is `//`, not `/`. */
  lemma RootChildParentIsDoubleSlash(n: string)
    requires Segment(n)
    ensures Dirname("/" + "/" + n) == "//"
  {
    DirEndThroughName("/", n, |n| + 1, true);
  }

  /** The value map of a child is the node stored at the child's path. */
  lemma ChildValueMap(t: Contents, r: Resource, n: string)
    requires Child(t, r, n).Ok?
    ensures ValueMap(t, Child(t, r, n).value) == Some(t.nodes[r.path + "/" + n])
  {
  }
}

=== FILE: results.dfy ===
/** Absence and failure outcomes shared by every part of the model.

    JavaScript distinguishes `undefined` (an absent property) from `null`, and
    the plugin signals most of its errors by letting a `TypeError` escape.
    `Option` models an absent value; `Result` models an operation that either
    yields a value or raises one of the `Fault`s below. */
module Results {

  datatype Option<+T> = None | Some(value: T)

  /** The ways an operation of the plugin can throw. */
  datatype Fault =
    | ReadOfUndefined        // a property read on `undefined` (e.g. a path absent from the contents)
    | ReadOfNull             // a property read on `null` (a `null` content node, or no resource at all)
    | ReplaceOnNonString     // `.replace` called on a truthy `jcr:primaryType` that is not a string
    | NonStringResourceType  // a truthy `sling:resourceType` that is not a string
    | NotAResolver           // the globals hold something other than the resource resolver under `resourceResolver`
    | NotAResource           // the globals hold something other than a resource under `resource`

  datatype Result<+T> = Ok(value: T) | Fail(fault: Fault) {

    predicate IsFailure() {
      Fail?
    }

    function PropagateFailure<U>(): Result<U>
      requires Fail?
    {
      Fail(fault)
    }

    function Extract(): T
      requires Ok?
    {
      value
    }
  }
}
